=== FILE: README.md ===
# Autumn to-do list: the task-list state machine in Dafny

This project models the state machine at the centre of the Autumn to-do app.
The app implements it twice. The first version is a framework-free page script (`js/style.js`) over a global
`todoList` and a single `deletedTask` undo slot. The second is a React/Redux rewrite whose tasks slice
(`tasksSlice.js`) holds the same operations as reducers. It also has three selectors: the whole list
(`selectAllTasks`, which the row and notes components read; it is the stored list `s.tasks` itself and
needs no member of its own), the filtered and searched list, and the statistics bar.

Around the slice sit small pieces of caller logic, and these are modelled too:
- the add form's validation and reset (`InputSection.jsx`);
- the task row's id-to-position lookup and its dispatch guards (`TaskItem.jsx`);
- the notes modal's draft and save/close logic (`NotesModal.jsx`);
- the UI-flag reducers (`uiSlice.js`);
- the three-theme cycle (`themeSlice.js`).

Every reducer and handler is a pure function from the old state to the new one. Browser inputs become
parameters:
- the `prompt` answer is an `Option<string>`;
- the `confirm` answer is a `bool`;
- the clock's id and ISO timestamp are an `int` and a `string`;
- the parsed drag index is an `Option<int>`.

Files, one module each:
- `optional.dfy`: `Option`.
- `text.dfy`: `trim`, ASCII `toLowerCase`, `includes`.
- `splice.dfy`: the two uses of `Array.prototype.splice`, and the reorder built from them.
- `task_model.dfy`: the task record, the undo slot, the add payload, the form, and the constants from `constants.js`.
- `views.dfy`: the filter/search projection and the statistics. Both variants share them.
- `tasks_slice.dfy`, `ui_slice.dfy`, `theme_slice.dfy`: the Redux slices.
- `input_section.dfy`, `task_item.dfy`, `notes_modal.dfy`: the React components' logic.
- `style_js.dfy`: the page-script variant, plus lemmas saying that it agrees with the Redux variant.

Three facts about the code shape the model:
- Only the callers check the text of a new task: trimmed, non-blank, at most 200 characters.
  The `addTask` and `editTask` reducers store whatever they are given, and no edit path checks the length.
- `deleteAll` leaves the undo slot as it is.
  So an undo after a bulk delete puts the pending task back into the emptied list (`DeleteAllThenUndo`).
- Task ids are `Date.now()` readings, and nothing makes them unique.
  Lemmas that need distinct ids state `UniqueIds` as a hypothesis.

Two handlers are modelled twice, as written and as evidently intended (see "## Findings"):
the drop handlers of both variants, and Ctrl+Z while the notes modal is open.

## Model

| member | source | states |
|---|---|---|
| TasksSlice.Initial | autumn-todo-react/src/redux/slices/tasksSlice.js:21-26 | the start state holds the loaded tasks, an empty undo slot, the filter `all` and an empty query, and its view is the whole list |
| TasksSlice.AddTask | autumn-todo-react/src/redux/slices/tasksSlice.js:32-41 | exactly one task is appended, the earlier tasks are unchanged, and the new task carries the given id and timestamp and the payload's text, notes, category, priority and due date; it is not completed even when the payload says it is; view fields and undo slot are unchanged |
| TasksSlice.DeleteTask | autumn-todo-react/src/redux/slices/tasksSlice.js:43-51 | only position `index` is removed (prefix kept, suffix shifted) and the undo slot becomes (removed task, index), replacing any earlier one |
| TasksSlice.UndoDelete | autumn-todo-react/src/redux/slices/tasksSlice.js:53-59 | with an empty slot it is a no-op; otherwise the pending task is inserted at its index clamped to the length, removing it again gives the previous list, and the slot is emptied |
| TasksSlice.FollowUndo | autumn-todo-react/src/redux/slices/tasksSlice.js:53-59 | after an undo, the task that was at position i sits at the returned position: i + 1 when the restored task goes in at or before it, else i |
| TasksSlice.ClearDeletedTask | autumn-todo-react/src/redux/slices/tasksSlice.js:61-63 | the undo-expiry event empties the slot and changes nothing else |
| TasksSlice.EditTask | autumn-todo-react/src/redux/slices/tasksSlice.js:65-71 | an index naming no task leaves the state unchanged; otherwise only that task's text changes |
| TasksSlice.ToggleComplete | autumn-todo-react/src/redux/slices/tasksSlice.js:73-79 | an index naming no task leaves the state unchanged; otherwise only that task's `completed` flips |
| TasksSlice.ToggleTwice | autumn-todo-react/src/redux/slices/tasksSlice.js:73-79 | toggling the same index twice is the identity |
| TasksSlice.UpdateTaskNotes | autumn-todo-react/src/redux/slices/tasksSlice.js:81-87 | an index naming no task leaves the state unchanged; otherwise only that task's notes change |
| TasksSlice.ReorderTasks | autumn-todo-react/src/redux/slices/tasksSlice.js:89-95 | the list is a permutation of the old one of the same length; the dragged task sits at the drop position (clamped to the last slot); removing it from there gives the old list without it; drag == drop is the identity |
| TasksSlice.CompleteAll | autumn-todo-react/src/redux/slices/tasksSlice.js:97-100 | every task is marked completed and no other field or task changes |
| TasksSlice.CompleteAllIdempotent | autumn-todo-react/src/redux/slices/tasksSlice.js:97-100 | completing all twice is the same as once |
| TasksSlice.CompleteAllStats | autumn-todo-react/src/redux/slices/tasksSlice.js:159-168 | after complete-all the completed count is the total, and the rate is 100 for a non-empty list |
| TasksSlice.DeleteAll | autumn-todo-react/src/redux/slices/tasksSlice.js:102-105 | the list is emptied and the undo slot and view fields are untouched |
| TasksSlice.DeleteAllThenUndo | autumn-todo-react/src/redux/slices/tasksSlice.js:53-59 | undo after delete-all brings the pending task back as the only task |
| TasksSlice.SetFilter | autumn-todo-react/src/redux/slices/tasksSlice.js:107-109 | only the filter changes, to the payload |
| TasksSlice.SetSearchQuery | autumn-todo-react/src/redux/slices/tasksSlice.js:111-113 | only the search query changes, to the payload |
| TasksSlice.DeleteThenUndo | autumn-todo-react/src/redux/slices/tasksSlice.js:43-59 | delete at a valid index followed by undo restores the exact list and empties the slot |
| TasksSlice.UndoTwice | autumn-todo-react/src/redux/slices/tasksSlice.js:54 | a second consecutive undo changes nothing |
| TasksSlice.UndoClampsToEnd | autumn-todo-react/src/redux/slices/tasksSlice.js:55 | a recorded index at or beyond the current length appends the task at the end |
| TasksSlice.UndoThenDelete | autumn-todo-react/src/redux/slices/tasksSlice.js:43-59 | deleting at the position an undo put the task back at returns to the list before the undo and re-records the same task |
| TasksSlice.EditRestored | autumn-todo-react/src/redux/slices/tasksSlice.js:65-71 | editing back to the old text restores the whole state |
| TasksSlice.NotesRestored | autumn-todo-react/src/redux/slices/tasksSlice.js:81-87 | writing back the old notes restores the whole state |
| TasksSlice.ReorderUndone | autumn-todo-react/src/redux/slices/tasksSlice.js:89-95 | dragging the task back from its landing position to its origin restores the state |
| TasksSlice.ReorderKeepsStats | autumn-todo-react/src/redux/slices/tasksSlice.js:89-95 | a reorder leaves total, completed, pending and rate unchanged |
| TasksSlice.AddTaskStats | autumn-todo-react/src/redux/slices/tasksSlice.js:32-41 | an add raises the total and the pending count by one and keeps the completed count |
| TasksSlice.ActiveSearchExample | autumn-todo-react/src/redux/slices/tasksSlice.js:135-156 | 'active' with query "mi" over Milk (open), Gym (done), Mission (open) gives Milk, Mission in that order |
| TasksSlice.SelectFilteredTasks | autumn-todo-react/src/redux/slices/tasksSlice.js:135-156 | the displayed list is a subsequence of the stored tasks holding each shown task as often as stored and nothing else |
| TasksSlice.SelectTaskStats | autumn-todo-react/src/redux/slices/tasksSlice.js:159-168 | total is the length, completed the number of completed positions, pending their difference, and the rate their rounded percentage |
| Views.FilterTasks | autumn-todo-react/src/redux/slices/tasksSlice.js:135-156 | the result is an order-preserving subsequence of the tasks; every element passes the status predicate and, for a non-empty query, the lower-case substring match; each task that passes both occurs as often as in the list and every other task not at all |
| Views.FilterAllShowsEverything | autumn-todo-react/src/redux/slices/tasksSlice.js:140-154 | with 'all' (or any value other than 'active'/'completed') and an empty query the view is the task list itself |
| Views.Where | autumn-todo-react/src/redux/slices/tasksSlice.js:143-145 | `filter` keeps, in order, exactly the elements satisfying the predicate: a subsequence whose elements all pass, in which each passing element occurs as often as in the input and no other element occurs |
| Views.ByStatus | autumn-todo-react/src/redux/slices/tasksSlice.js:142-146 | 'active' keeps the open tasks, 'completed' the done ones, any other value all of them: a subsequence with each matching task as often as in the list and nothing else |
| Views.QueryCaseIgnored | autumn-todo-react/src/redux/slices/tasksSlice.js:148-152 | lower-casing the query first shows exactly the same tasks |
| Views.EmptyQueryMatches | autumn-todo-react/src/redux/slices/tasksSlice.js:148-152 | the empty-query test changes nothing: the empty query is included in every text |
| Views.WhereAppend | autumn-todo-react/src/redux/slices/tasksSlice.js:163 | filtering a concatenation is the concatenation of the filtered parts |
| Views.WhereCountPermutation | autumn-todo-react/src/redux/slices/tasksSlice.js:163 | the number of elements passing a filter is the same for any permutation of the list |
| Views.WhereWhere | autumn-todo-react/src/redux/slices/tasksSlice.js:142-152 | the two-stage filter (status, then search) equals one filter by the conjunction |
| Views.ComputeStats | autumn-todo-react/src/redux/slices/tasksSlice.js:159-168 | total is the length; completed is the number of positions holding a completed task, so it equals total when every task is done; pending = total - completed; the rate is `Views.Rate` of the two, 100 when all of a non-empty list are done; the empty list gives all zeros |
| Views.DoneCountIsPositions | autumn-todo-react/src/redux/slices/tasksSlice.js:163 | the length of the done-filter equals the number of completed positions |
| Views.Rate | autumn-todo-react/src/redux/slices/tasksSlice.js:165 | 0 for no tasks; otherwise within half a point of 100·completed/total, halves rounding up; 100 when all are completed |
| Views.RateThirds | autumn-todo-react/src/redux/slices/tasksSlice.js:165 | one of three gives 33, two of three gives 67 |
| Views.StatsMatchViews | autumn-todo-react/src/redux/slices/tasksSlice.js:162-164 | the completed count is the size of the 'completed' view and the pending count the size of the 'active' view |
| Text.Trim | autumn-todo-react/src/components/InputSection.jsx:14 | the result is the input with a blank head and a blank tail removed, and it neither starts nor ends with a space |
| Text.TrimEmptyIffBlank | autumn-todo-react/src/components/InputSection.jsx:14-18 | trimming gives the empty string exactly when every character is whitespace |
| Text.TrimIdempotent | autumn-todo-react/src/components/TaskItem.jsx:26-27 | trimming twice is trimming once |
| Text.IncludesIffOccurs | autumn-todo-react/src/redux/slices/tasksSlice.js:150 | `includes` holds exactly when the needle occurs at some position of the haystack |
| Splice.RemoveAt | autumn-todo-react/src/redux/slices/tasksSlice.js:49 | `splice(i, 1)` keeps the prefix, shifts the suffix down, and drops exactly one copy of the element |
| Splice.InsertAt | autumn-todo-react/src/redux/slices/tasksSlice.js:55 | `splice(i, 0, x)` puts x at i clamped to the length, keeps the prefix, shifts the rest up, and adds exactly x to the multiset |
| Splice.InsertRemoveRoundTrip | autumn-todo-react/src/redux/slices/tasksSlice.js:43-59 | re-inserting a removed element at its index gives the original sequence |
| Splice.RemoveInsertRoundTrip | autumn-todo-react/src/redux/slices/tasksSlice.js:55 | removing an inserted element from where it landed gives the sequence it was inserted into |
| Splice.Move | autumn-todo-react/src/redux/slices/tasksSlice.js:89-95 | splice-out then splice-in is a permutation with the moved element at its destination and the others in their old relative order |
| Splice.MoveBack | autumn-todo-react/src/redux/slices/tasksSlice.js:89-95 | dragging the moved element back from its destination to its origin restores the list |
| Splice.MoveToSelf | js/style.js:360-369 | moving an element onto its own position is the identity |
| UiSlice.InitialUiIsClosed | autumn-todo-react/src/redux/slices/uiSlice.js:5-10 | initially every flag is false and no task is being annotated |
| UiSlice.OpenShortcutsModal | autumn-todo-react/src/redux/slices/uiSlice.js:12-14 | sets only the shortcuts flag |
| UiSlice.CloseShortcutsModal | autumn-todo-react/src/redux/slices/uiSlice.js:16-18 | clears only the shortcuts flag |
| UiSlice.OpenNotesModal | autumn-todo-react/src/redux/slices/uiSlice.js:20-23 | the notes modal opens on the given index; the other flags are unchanged |
| UiSlice.CloseNotesModal | autumn-todo-react/src/redux/slices/uiSlice.js:25-28 | the notes modal closes and the editing index becomes null; the other flags are unchanged |
| UiSlice.ShowUndoToast | autumn-todo-react/src/redux/slices/uiSlice.js:30-32 | sets only the toast flag |
| UiSlice.HideUndoToast | autumn-todo-react/src/redux/slices/uiSlice.js:34-36 | clears only the toast flag |
| UiSlice.FlagReducersIdempotent | autumn-todo-react/src/redux/slices/uiSlice.js:12-36 | each flag reducer applied twice equals applied once |
| UiSlice.OpenThenCloseNotes | autumn-todo-react/src/redux/slices/uiSlice.js:20-28 | open-then-close of the notes modal leaves the other flags as before |
| ThemeSlice.IndexOf | autumn-todo-react/src/redux/slices/themeSlice.js:21 | `indexOf` is the first position holding the value, and -1 exactly when it is absent |
| ThemeSlice.CycleTheme | autumn-todo-react/src/redux/slices/themeSlice.js:19-23 | light→dark→winter→light; an unknown theme goes to light; the result is always one of the three |
| ThemeSlice.CycleThrice | autumn-todo-react/src/redux/slices/themeSlice.js:20-22 | three cycles from a known theme return to it |
| ThemeSlice.SetTheme | autumn-todo-react/src/redux/slices/themeSlice.js:26-29 | the payload is stored verbatim |
| ThemeSlice.LoadTheme | autumn-todo-react/src/redux/slices/themeSlice.js:4-11 | nothing saved, or '' saved, gives light; any other saved value is used |
| InputSection.HandleAddTask | autumn-todo-react/src/components/InputSection.jsx:13-38 | dispatches exactly when the trimmed text is non-blank and at most 200 characters; rejection keeps the form; the payload has the trimmed text (1..200), the form's category, priority and due date, and empty notes; after a dispatch the form is reset to its initial values |
| InputSection.BlankTextRejected | autumn-todo-react/src/components/InputSection.jsx:14-18 | an all-whitespace text dispatches nothing and keeps the form |
| InputSection.AddThroughForm | autumn-todo-react/src/components/InputSection.jsx:25-31 | form plus reducer adds one open task whose text is trimmed, 1..200 characters, with empty notes |
| TaskItem.ActualIndex | autumn-todo-react/src/components/TaskItem.jsx:16 | the first position in the full list whose id matches, and -1 exactly when no task has that id |
| TaskItem.ActualIndexOfMember | autumn-todo-react/src/components/TaskItem.jsx:16 | with distinct ids, the actual index of a task's id is that task's position |
| TaskItem.RenderedHasIndex | autumn-todo-react/src/components/TaskItem.jsx:16 | a rendered task has an actual index in range, pointing at the task itself when ids are distinct |
| TaskItem.HandleDelete | autumn-todo-react/src/components/TaskItem.jsx:20-22 | removes exactly the task at the actual index (prefix kept, suffix shifted); the pending task has the row's id, and with distinct ids is the row's task; filter and query are unchanged |
| TaskItem.DeleteRowThenUndo | autumn-todo-react/src/components/TaskItem.jsx:20-22 | deleting a row and undoing restores the exact list and empties the slot |
| TaskItem.HandleEdit | autumn-todo-react/src/components/TaskItem.jsx:24-29 | a cancelled or blank answer changes nothing; otherwise only the task at the actual index gets the trimmed answer as its text |
| TaskItem.EditRenamesRow | autumn-todo-react/src/components/TaskItem.jsx:24-29 | with distinct ids an accepted edit renames exactly the row's task |
| TaskItem.HandleToggle | autumn-todo-react/src/components/TaskItem.jsx:31-39 | always toggles the task at the actual index and nothing else; celebrates exactly when the row's task was open |
| TaskItem.CelebrateOnCompletion | autumn-todo-react/src/components/TaskItem.jsx:31-39 | with distinct ids the celebration fires exactly on a false→true transition of the row's task |
| TaskItem.HandleNotes | autumn-todo-react/src/components/TaskItem.jsx:41-43 | the notes modal opens on the actual index; the shortcuts and toast flags are unchanged |
| TaskItem.HandleDrop | autumn-todo-react/src/components/TaskItem.jsx:62-74 | with the missing range check added: no number, the row's own index, or a number naming no task changes nothing; otherwise the list is a permutation with the dragged task at the row's position and the rest in their old order |
| TaskItem.HandleDropAsWritten | autumn-todo-react/src/components/TaskItem.jsx:62-74 | the handler as written puts `undefined` into the list exactly when the dropped number differs from the row's index and names no task; in every other case it equals `TaskItem.HandleDrop` |
| TaskItem.ForeignNumberCorrupts | autumn-todo-react/src/components/TaskItem.jsx:66-73 | dropping the text "7" or "-1" on a row of a three-task list puts `undefined` into the list |
| NotesModal.DraftOnOpen | autumn-todo-react/src/components/NotesModal.jsx:14-18 | opened on an index naming a task, the draft becomes that task's notes; otherwise the draft stays |
| NotesModal.HandleSave | autumn-todo-react/src/components/NotesModal.jsx:22-30 | with an editing index only that task's notes change, to the trimmed draft; with none no task changes; the modal closes, the draft clears, and the shortcuts and toast flags are unchanged |
| NotesModal.HandleClose | autumn-todo-react/src/components/NotesModal.jsx:32-35 | closes the modal, forgets the editing index and clears the draft without touching any task; the shortcuts and toast flags are unchanged |
| NotesModal.HandleOverlayClick | autumn-todo-react/src/components/NotesModal.jsx:37-41 | a click on the overlay closes like cancel (modal closed, editing index forgotten, draft cleared); a click elsewhere does nothing; no task and neither the shortcuts nor the toast flag changes either way |
| NotesModal.OpenThenSaveTrims | autumn-todo-react/src/components/NotesModal.jsx:14-28 | opening on a task and saving the untouched draft stores that task's notes trimmed |
| NotesModal.UndoRetargetsNotes | autumn-todo-react/src/App.jsx:71-74 | with the notes of b open at position 0 and a pending undo of a at 0, Ctrl+Z reloads the draft with a's notes and Save writes to a, leaving b unchanged |
| NotesModal.UndoWhileEditing | autumn-todo-react/src/App.jsx:71-74 | the undo with the editing index moved along: the same slice result as `undoDelete`, the draft kept, the new index names the task the old one named, and the modal, shortcuts and toast flags are unchanged |
| NotesModal.SaveAfterUndoKeepsTarget | autumn-todo-react/src/components/NotesModal.jsx:22-30 | after that undo, Save stores the trimmed draft on the task the modal was opened on and changes no other task |
| StyleJs.AddTask | js/style.js:200-233 | blank or over-long trimmed text changes nothing; otherwise one open task with the trimmed text, the form's selections and empty notes is appended, and the form is reset; the undo slot, filter, query, editing index and text area are unchanged |
| StyleJs.DeleteTask | js/style.js:235-249 | the undo slot becomes (task, index), overwriting any previous one, and the task is removed; the filter, query, form, editing index and text area are unchanged |
| StyleJs.UndoExpired | js/style.js:242-245 | the timer callback empties the slot; the list, filter, query, form, editing index and text area are unchanged |
| StyleJs.UndoDelete | js/style.js:251-260 | re-inserts the pending task at its recorded index (clamped) and empties the slot, leaving the view settings, form, text area and editing index alone; with an empty slot it is a no-op |
| StyleJs.EditTask | js/style.js:262-269 | the trimmed answer replaces only that task's text when it is neither cancelled nor blank; otherwise nothing changes |
| StyleJs.ToggleComplete | js/style.js:271-280 | flips only that task's `completed`; confetti exactly when it is now completed |
| StyleJs.OpenNotesModal | js/style.js:282-287 | remembers the index and loads that task's notes into the text area (an index naming no task leaves the text area as it was); the list, undo slot, filter, query and form are unchanged |
| StyleJs.SaveNotes | js/style.js:289-297 | with an editing index naming a task, only its notes change, to the trimmed text, and the index is reset; with no index nothing happens |
| StyleJs.CancelNotes | js/style.js:299-302 | resets the editing index; the list, undo slot, text area, filter, query and form are unchanged |
| StyleJs.OpenThenCancelNotes | js/style.js:282-302 | opening a task's notes and cancelling restores the page except for the text area, which keeps that task's notes |
| StyleJs.CompleteAll | js/style.js:305-312 | unconfirmed, nothing changes; confirmed, every task is completed and nothing else changes |
| StyleJs.DeleteAll | js/style.js:314-320 | unconfirmed, nothing changes; confirmed, the list is emptied; the undo slot, view settings, form, text area and editing index are kept either way |
| StyleJs.DeleteAllThenUndo | js/style.js:251-260 | undo after a confirmed delete-all puts the pending task into the emptied list |
| StyleJs.HandleDrop | js/style.js:356-370 | with the missing drag-source check added: no drag source, the target row itself, or an index naming no task changes nothing; otherwise a permutation with the dragged task at the drop index and the rest in their old order, every other page field unchanged |
| StyleJs.HandleDropAsWritten | js/style.js:356-370 | the handler as written puts `undefined` into the list exactly when the drag did not start on a row, or its index differs from the target and names no task; otherwise it equals `StyleJs.HandleDrop` |
| StyleJs.ForeignDragCorrupts | js/style.js:356-365 | a drop on row 0 with no row dragged puts `undefined` into a non-empty list |
| StyleJs.GetFilteredTasks | js/style.js:103-121 | the displayed list is a subsequence of the list holding each shown task as often as in the list and nothing else |
| StyleJs.UpdateStats | js/style.js:89-93 | total is the length, completed the number of completed positions, pending their difference, and the rate their rounded percentage |
| StyleJs.ViewsAgree | js/style.js:89-121 | the page's filtered list and statistics equal the Redux selectors on the same tasks and settings |
| StyleJs.AddAgrees | js/style.js:200-233 | adding on the page equals the React form followed by the add reducer, including the reset form |
| StyleJs.ReducersAgree | js/style.js:235-370 | the page's delete, undo, expiry, drop reorder and confirmed bulk actions equal the corresponding Redux reducers |
| StyleJs.RowHandlersAgree | js/style.js:262-280 | with distinct ids, editing and toggling on the page match the React row handlers for the same task, confetti included |
| StyleJs.RowDropAgrees | js/style.js:356-370 | with distinct ids, a drop on the page's row i and on the React row of the same task give the same state, for every drag index |
| StyleJs.RowDeleteAgrees | js/style.js:235-249 | with distinct ids, deleting row i on the page and the React row of the same task give the same state |
| StyleJs.NotesOpenAgrees | js/style.js:282-287 | opening the notes of a task loads the same text as the React draft and remembers the same index |
| StyleJs.NotesSaveAgrees | js/style.js:289-297 | saving with an index naming a task gives the same tasks as the React modal and forgets the index on both |
| StyleJs.StaleNotesSaveDiffers | js/style.js:289-297 | saving with an index naming no task changes no task on either variant, but the page keeps the index while the React modal closes |
| StyleJs.UndoRetargetsNotes | js/style.js:451-454 | with the notes of b open at position 0 and a pending undo of a at 0, Ctrl+Z then Save writes the text area to a, leaving b unchanged |
| StyleJs.UndoWhileEditing | js/style.js:451-454 | the undo with the editing index moved along: the same list and slot as `undoDelete`, the text area kept, and the new index names the task the old one named |
| StyleJs.SaveAfterUndoKeepsTarget | js/style.js:289-297 | after that undo, Save stores the trimmed text area on the task whose notes were open and changes no other task |

## Left out

- Storage: reading and writing `localStorage` and the JSON encoding (`loadTasksFromStorage`, `saveTasksToStorage`, `saveToStorage`, `loadFromStorage`, the theme writes) are I/O. `TasksSlice.Initial` takes the loaded list as a parameter, and `ThemeSlice.LoadTheme` takes the stored value, where a failing read counts as none.
- Clock: the `Date.now()` id and the ISO `createdAt` are parameters. Id uniqueness is not claimed, because the code does not ensure it.
- Undo timer: the five-second `setTimeout`/`clearTimeout` is timing. Its firing is the explicit event `TasksSlice.ClearDeletedTask` (in the page script, `StyleJs.UndoExpired`).
- Views.Rate: computes `Math.round(completed / total * 100)` in exact integer arithmetic. Floating point can round an exact half differently.
- Text.Lower: `toLowerCase` is modelled for the ASCII letters only. Other letters are left unchanged.
- Text.Trim: strings are sequences of Unicode scalar values. JavaScript's `length` counts UTF-16 code units, so the 200-character limit is modelled in code points. Text outside the Basic Multilingual Plane would count differently.
- InputSection.HandleAddTask: the 200-character limit counts code points, not UTF-16 code units, so a text with characters outside the Basic Multilingual Plane that the code rejects as too long can be accepted here.
- StyleJs.AddTask: the same code-point count for the 200-character limit as `InputSection.HandleAddTask`.
- TasksSlice.DeleteTask, StyleJs.DeleteTask: these require the index to name a task. Their callers pass the position of a rendered row (the React row's actual index, the page's `data-index`), which always does.
- TasksSlice.ReorderTasks: requires the drag index to name a task. Its caller passes any number a drop carries; for one naming no task the reducer puts `undefined` into the list, which is outside the task record. That case is modelled one level up, as the `HoldsUndefined` outcome of `TaskItem.HandleDropAsWritten`.
- TaskItem.HandleDropAsWritten, StyleJs.HandleDropAsWritten: the corrupted outcome records only that `undefined` entered the list, not the list that results (nor, on the page, that `splice(null, 1)` also removes the first task).
- TaskItem.HandleDrop, StyleJs.HandleDrop: these are the handlers with the missing check added (see "## Findings"); the code as written is `HandleDropAsWritten`.
- TaskItem.HandleDelete, TaskItem.HandleDrop, TaskItem.HandleDropAsWritten: these require the row's task to be in the list, as every rendered row's task is. With an id that is missing, `findIndex` gives -1, and `splice(-1, …)` would act on the last task.
- NotesModal.UndoWhileEditing: keeps the draft as typed. With the component's reload effect unchanged, the draft would instead be reset to the stored notes of the task the index now names.
- The page script's notes-modal visibility, the toast, focus and the form's `alert` are DOM effects and are not modelled. Only `currentEditingNotes` and the text-area contents are kept.
- The page script's `toggleTheme` (a two-theme dark-mode toggle) and `loadTheme` are display-only and not modelled. The modelled theme logic is the React slice.
- Rendering, confetti, falling leaves, `escapeHtml`, `formatDate`, `randomRange`/`randomItem`, `exportTasks`, the keyboard shortcuts other than Ctrl+Z, and event wiring are presentation, randomness or browser APIs. Ctrl+Z is modelled only where it meets the notes modal; elsewhere it is the plain undo.
- The components FilterBar, StatsBar, TasksList, ShortcutsModal, ShortcutsButton, ThemeToggle, UndoToast, App, the store setup and `helpers.js` only render or wire things up. `constants.js` supplies the enum values in `TaskModel` and `ThemeSlice`.
- No length limit on edit: neither variant enforces one, so none is modelled.

## Findings

| source | as written | input that shows it | evidently intended | confidence | as-written member | corrected member |
|---|---|---|---|---|---|---|
| autumn-todo-react/src/components/TaskItem.jsx:66-73 | any dropped text that parses as a number other than the row's index is dispatched as a drag index, with no range check | the text "7" dragged onto a row of a three-task list: the reducer reads `tasks[7]`, which is `undefined`, and splices it into the list | only an index naming a task reorders; anything else is ignored | high (not executed) | TaskItem.HandleDropAsWritten | TaskItem.HandleDrop |
| js/style.js:356-365 | a drop whose drag did not start on a row passes the `draggedElement !== dropTarget` test with `draggedIndex` null | a word from the search box dragged onto row 0: `splice(null, 1)` removes the first task and `undefined` is inserted | a drop without a dragged row is ignored | high (not executed) | StyleJs.HandleDropAsWritten | StyleJs.HandleDrop |
| autumn-todo-react/src/App.jsx:71-74 | Ctrl+Z dispatches `undoDelete` while the notes modal keeps its editing position | delete task a at 0, open the notes of b (now at 0), press Ctrl+Z: a is back at 0, the draft reloads with a's notes and Save writes to a | the modal keeps editing b, now at position 1 | medium (not executed) | NotesModal.UndoRetargetsNotes | NotesModal.UndoWhileEditing |
| js/style.js:451-454 | Ctrl+Z runs `undoDelete` while `currentEditingNotes` keeps its position | delete task a at 0, open the notes of b (now at 0), type, press Ctrl+Z, then Save: the text goes to a | the notes go to b, now at position 1 | medium (not executed) | StyleJs.UndoRetargetsNotes | StyleJs.UndoWhileEditing |

=== FILE: input_section.dfy ===
/** The add-task form component: the validation it applies before dispatching
    `addTask`, and the form reset after a successful add. */
module InputSection {
  import opened Optional
  import opened Text
  import opened TaskModel
  import TasksSlice

  /** What pressing Add does: the form state afterwards, and the payload dispatched, if any. */
  datatype AddOutcome = AddOutcome(form: Form, dispatched: Option<TaskPayload>)

  /** `handleAddTask`: a blank or over-long text dispatches nothing and leaves the form as
      it is; otherwise the payload carries the trimmed text, the selected category,
      priority and due date and empty notes, and the form goes back to its initial state. */
  function HandleAddTask(form: Form): (r: AddOutcome)
    ensures r.dispatched.Some? <==> AcceptableText(form.text)
    ensures r.dispatched == None ==> r.form == form
    ensures r.dispatched.Some? ==>
      var p := r.dispatched.value;
      && p.text == Trim(form.text) && 1 <= |p.text| <= MaxTextLength
      && p.category == form.category && p.priority == form.priority && p.dueDate == form.dueDate
      && p.notes == [] && p.completed == None
      && r.form == InitialForm
  {
    var text := Trim(form.text);
    if text == [] then AddOutcome(form, None)
    else if |text| > MaxTextLength then AddOutcome(form, None)
    else AddOutcome(InitialForm, Some(TaskPayload(text, form.category, form.priority, form.dueDate, [], None)))
  }

  /** A form whose text is only spaces dispatches nothing. */
  lemma {:induction false} BlankTextRejected(form: Form)
    requires IsBlank(form.text)
    ensures HandleAddTask(form) == AddOutcome(form, None)
  {
    TrimEmptyIffBlank(form.text);
  }

  /** The whole add path, form then reducer: an accepted form adds one open task whose
      text is the trimmed input, between 1 and 200 characters, with empty notes. */
  lemma {:induction false} AddThroughForm(s: TasksSlice.State, form: Form, id: int, createdAt: string)
    requires AcceptableText(form.text)
    ensures var r := TasksSlice.AddTask(s, HandleAddTask(form).dispatched.value, id, createdAt);
      && |r.tasks| == |s.tasks| + 1
      && var t := r.tasks[|s.tasks|];
      && !t.completed && t.text == Trim(form.text) && 1 <= |t.text| <= MaxTextLength && t.notes == []
      && t.text == Trim(t.text)
  {
    TrimIdempotent(form.text);
  }
}

=== FILE: notes_modal.dfy ===
/** The notes modal component: its draft text, and the dispatches its Save, Cancel,
    close and overlay-click handlers make. */
module NotesModal {
  import opened Optional
  import opened Text
  import opened TaskModel
  import opened TasksSlice
  import opened UiSlice

  /** The effect that runs when the modal opens or the task list changes: with the modal
      open on an index that names a task, the draft becomes that task's notes; otherwise
      the draft is left as it was. */
  function DraftOnOpen(u: Ui, tasks: seq<Task>, draft: string): (r: string)
    ensures u.notesModalOpen && u.currentEditingNotes.Some? && 0 <= u.currentEditingNotes.value < |tasks| ==>
      r == tasks[u.currentEditingNotes.value].notes
    ensures !(u.notesModalOpen && u.currentEditingNotes.Some? && 0 <= u.currentEditingNotes.value < |tasks|) ==>
      r == draft
  {
    if u.notesModalOpen then
      match u.currentEditingNotes
      case Some(i) => if 0 <= i < |tasks| then tasks[i].notes else draft
      case None => draft
    else draft
  }

  /** The result of a modal handler: both slices and the component's draft. */
  datatype Step = Step(ui: Ui, state: State, draft: string)

  /** `handleClose` (Cancel, the close button): closes the modal and clears the draft; no task changes. */
  function HandleClose(u: Ui, s: State, draft: string): (r: Step)
    ensures r.state == s
    ensures !r.ui.notesModalOpen && r.ui.currentEditingNotes == None && r.draft == []
    ensures r.ui.shortcutsModalOpen == u.shortcutsModalOpen && r.ui.undoToastVisible == u.undoToastVisible
  {
    Step(CloseNotesModal(u), s, [])
  }

  /** `handleSave`: when an editing index is set, the trimmed draft becomes that task's
      notes (an index naming no task changes nothing); then the modal closes as on cancel. */
  function HandleSave(u: Ui, s: State, draft: string): (r: Step)
    ensures !r.ui.notesModalOpen && r.ui.currentEditingNotes == None && r.draft == []
    ensures r.ui.shortcutsModalOpen == u.shortcutsModalOpen && r.ui.undoToastVisible == u.undoToastVisible
    ensures u.currentEditingNotes == None ==> r.state == s
    ensures u.currentEditingNotes.Some? ==>
      var i := u.currentEditingNotes.value;
      && SameExceptAt(r.state.tasks, s.tasks, i)
      && (0 <= i < |s.tasks| ==> r.state.tasks[i] == s.tasks[i].(notes := Trim(draft)))
      && r.state.deletedTask == s.deletedTask
      && r.state.filter == s.filter && r.state.searchQuery == s.searchQuery
  {
    var s' := match u.currentEditingNotes
      case Some(i) => UpdateTaskNotes(s, i, Trim(draft))
      case None => s;
    HandleClose(u, s', draft)
  }

  /** A click on the overlay closes like Cancel; a click inside the dialog does nothing. */
  function HandleOverlayClick(u: Ui, s: State, draft: string, onOverlay: bool): (r: Step)
    ensures r.state == s
    ensures onOverlay ==> !r.ui.notesModalOpen && r.ui.currentEditingNotes == None && r.draft == []
    ensures r.ui.shortcutsModalOpen == u.shortcutsModalOpen && r.ui.undoToastVisible == u.undoToastVisible
    ensures !onOverlay ==> r == Step(u, s, draft)
  {
    if onOverlay then HandleClose(u, s, draft) else Step(u, s, draft)
  }

  /** Opening on a task and saving without editing stores that task's notes trimmed. */
  lemma OpenThenSaveTrims(u: Ui, s: State, draft: string, i: nat)
    requires i < |s.tasks|
    ensures var afterOpen := OpenNotesModal(u, i);
      var r := HandleSave(afterOpen, s, DraftOnOpen(afterOpen, s.tasks, draft));
      r.state.tasks[i].notes == Trim(s.tasks[i].notes)
  {
  }

  /** Ctrl+Z while the modal is open, as the keyboard handler does it: only `undoDelete` is
      dispatched, so the modal keeps a bare position. With `a` deleted from position 0 and
      the modal opened on `b`, which then sits at position 0, the undo puts `a` back in
      front of `b`: the draft reloads with `a`'s notes, and Save writes to `a` and leaves
      `b` as it was. */
  lemma UndoRetargetsNotes(a: Task, b: Task, draft: string)
    ensures var s := State([b], FilterAll, [], Some(Deleted(a, 0)));
      var u := OpenNotesModal(InitialUi, 0);
      var undone := UndoDelete(s);
      && s.tasks[0] == b
      && DraftOnOpen(u, undone.tasks, draft) == a.notes
      && HandleSave(u, undone, draft).state.tasks == [a.(notes := Trim(draft)), b]
  {
    var s := State([b], FilterAll, [], Some(Deleted(a, 0)));
    assert UndoDelete(s).tasks == [a, b];
  }

  /** Ctrl+Z while the modal is open, with the modal following its task: the undo, the
      editing index moved to where the edited task now sits, and the draft kept. */
  function UndoWhileEditing(u: Ui, s: State, draft: string): (r: Step)
    ensures r.state == UndoDelete(s) && r.draft == draft
    ensures r.ui.notesModalOpen == u.notesModalOpen
    ensures r.ui.shortcutsModalOpen == u.shortcutsModalOpen && r.ui.undoToastVisible == u.undoToastVisible
    ensures u.currentEditingNotes == None ==> r.ui == u
    ensures u.currentEditingNotes.Some? && ValidIndex(s, u.currentEditingNotes.value) ==>
      && r.ui.currentEditingNotes.Some?
      && ValidIndex(r.state, r.ui.currentEditingNotes.value)
      && r.state.tasks[r.ui.currentEditingNotes.value] == s.tasks[u.currentEditingNotes.value]
  {
    match u.currentEditingNotes
    case None => Step(u, UndoDelete(s), draft)
    case Some(i) => Step(u.(currentEditingNotes := Some(FollowUndo(s, i))), UndoDelete(s), draft)
  }

  /** After that undo, Save stores the draft on the task the modal was opened on, and no
      other task changes. */
  lemma {:induction false} SaveAfterUndoKeepsTarget(u: Ui, s: State, draft: string, i: nat)
    requires u.currentEditingNotes == Some(i) && i < |s.tasks|
    ensures var st := UndoWhileEditing(u, s, draft);
      var j := st.ui.currentEditingNotes.value;
      var saved := HandleSave(st.ui, st.state, st.draft).state;
      && 0 <= j < |saved.tasks|
      && saved.tasks[j] == s.tasks[i].(notes := Trim(draft))
      && SameExceptAt(saved.tasks, UndoDelete(s).tasks, j)
  {
  }
}

=== FILE: optional.dfy ===
/** The JavaScript `null`/value distinction used by the task list: a value
    that is either absent or present. */
module Optional {

  datatype Option<+T> = None | Some(value: T)
}

=== FILE: splice.dfy ===
/** `Array.prototype.splice` in the two shapes the task list uses it:
    removing one element, and inserting one element at a start position that
    is clamped to the length of the array. */
module Splice {

  /** The outcome of a splice-based update: a value the model describes, or an array into
      which `splice` has inserted `undefined` because the element it was handed was read
      from a position holding none. */
  datatype Spliced<T> = Clean(value: T) | HoldsUndefined

  /** The position `splice(i, 0, x)` actually inserts at: a start beyond the end is the end. */
  function Clamp(i: nat, n: nat): (p: nat)
    ensures p <= n
    ensures i <= n ==> p == i
    ensures i > n ==> p == n
  {
    if i < n then i else n
  }

  /** `s.splice(i, 1)` on a valid position: everything before `i` stays, everything after shifts down. */
  function RemoveAt<T>(s: seq<T>, i: nat): (r: seq<T>)
    requires i < |s|
    ensures |r| == |s| - 1
    ensures r[..i] == s[..i]
    ensures r[i..] == s[i + 1..]
    ensures multiset(r) + multiset{s[i]} == multiset(s)
  {
    assert s == s[..i] + [s[i]] + s[i + 1..];
    s[..i] + s[i + 1..]
  }

  /** `s.splice(i, 0, x)`: `x` lands at the clamped position, the elements from there on shift up. */
  function InsertAt<T>(s: seq<T>, i: nat, x: T): (r: seq<T>)
    ensures |r| == |s| + 1
    ensures r[Clamp(i, |s|)] == x
    ensures r[..Clamp(i, |s|)] == s[..Clamp(i, |s|)]
    ensures r[Clamp(i, |s|) + 1..] == s[Clamp(i, |s|)..]
    ensures multiset(r) == multiset(s) + multiset{x}
  {
    var p := Clamp(i, |s|);
    assert s == s[..p] + s[p..];
    s[..p] + [x] + s[p..]
  }

  /** Re-inserting a removed element at its old position gives the original sequence back. */
  lemma {:induction false} InsertRemoveRoundTrip<T>(s: seq<T>, i: nat)
    requires i < |s|
    ensures InsertAt(RemoveAt(s, i), i, s[i]) == s
  {
    var r := InsertAt(RemoveAt(s, i), i, s[i]);
    assert Clamp(i, |s| - 1) == i;
    assert r == r[..i] + [r[i]] + r[i + 1..];
    assert s == s[..i] + [s[i]] + s[i + 1..];
  }

  /** Removing an element just inserted gives the sequence it was inserted into. */
  lemma {:induction false} RemoveInsertRoundTrip<T>(s: seq<T>, i: nat, x: T)
    ensures RemoveAt(InsertAt(s, i, x), Clamp(i, |s|)) == s
  {
    var p := Clamp(i, |s|);
    var r := RemoveAt(InsertAt(s, i, x), p);
    assert r == r[..p] + r[p..];
    assert s == s[..p] + s[p..];
  }

  /** Where a dragged element ends up: the drop position, clamped to the last slot. */
  function Dest(to: nat, n: nat): (p: nat)
    requires n > 0
    ensures p < n
    ensures to < n ==> p == to
  {
    Clamp(to, n - 1)
  }

  /** The drag-and-drop reorder: splice the element at `from` out, then splice it back in at `to`.
      The result is a permutation of `s` with the moved element at its destination and the
      other elements in their original relative order. */
  function Move<T>(s: seq<T>, from: nat, to: nat): (r: seq<T>)
    requires from < |s|
    ensures |r| == |s|
    ensures multiset(r) == multiset(s)
    ensures r[Dest(to, |s|)] == s[from]
    ensures RemoveAt(r, Dest(to, |s|)) == RemoveAt(s, from)
  {
    var rest := RemoveAt(s, from);
    var r := InsertAt(rest, to, s[from]);
    RemoveInsertRoundTrip(rest, to, s[from]);
    r
  }

  /** Dropping an element on its own position changes nothing. */
  lemma MoveToSelf<T>(s: seq<T>, i: nat)
    requires i < |s|
    ensures Move(s, i, i) == s
  {
    InsertRemoveRoundTrip(s, i);
  }

  /** Dragging the moved element back to where it came from undoes the reorder. */
  lemma {:induction false} MoveBack<T>(s: seq<T>, from: nat, to: nat)
    requires from < |s|
    ensures Move(Move(s, from, to), Dest(to, |s|), from) == s
  {
    var m := Move(s, from, to);
    var d := Dest(to, |s|);
    assert RemoveAt(m, d) == RemoveAt(s, from);
    assert m[d] == s[from];
    InsertRemoveRoundTrip(s, from);
  }
}

=== FILE: style_js.dfy ===
/** The first, framework-free variant of the task list: the page script's global state
    (`todoList`, `currentFilter`, `searchQuery`, `deletedTask`, `currentEditingNotes`, and
    the form and notes inputs it reads) and its task handlers. Browser dialogs become
    parameters: `prompt` an optional answer, `confirm` a boolean. A handler that
    dereferences a missing task throws a TypeError there; what it assigned before that
    point stays assigned (`openNotesModal` has already stored the index), everything
    after it is skipped. */
module StyleJs {
  import opened Optional
  import opened Text
  import opened Splice
  import opened TaskModel
  import Views
  import TasksSlice
  import InputSection
  import TaskItem
  import UiSlice
  import NotesModal

  datatype Page = Page(
    todoList: seq<Task>,
    currentFilter: string,
    searchQuery: string,
    deletedTask: Option<Deleted>,
    currentEditingNotes: Option<int>,
    notesText: string,
    form: Form)

  /** The part of the page the Redux tasks slice also holds. */
  function AsSlice(p: Page): TasksSlice.State {
    TasksSlice.State(p.todoList, p.currentFilter, p.searchQuery, p.deletedTask)
  }

  predicate ValidIndex(p: Page, index: int) {
    0 <= index < |p.todoList|
  }

  /** `addTask`: a blank or over-long trimmed text changes nothing; otherwise a new open task
      with the trimmed text, the form's selections and empty notes is appended and the form
      is reset. */
  function AddTask(p: Page, id: int, createdAt: string): (r: Page)
    ensures !AcceptableText(p.form.text) ==> r == p
    ensures AcceptableText(p.form.text) ==>
      && |r.todoList| == |p.todoList| + 1
      && r.todoList[..|p.todoList|] == p.todoList
      && r.todoList[|p.todoList|] == Task(id, Trim(p.form.text), false, p.form.category,
                                          p.form.priority, p.form.dueDate, [], createdAt)
      && r.form == InitialForm
      && r.deletedTask == p.deletedTask && r.currentEditingNotes == p.currentEditingNotes
      && r.currentFilter == p.currentFilter && r.searchQuery == p.searchQuery
      && r.notesText == p.notesText
  {
    var text := Trim(p.form.text);
    if text == [] then p
    else if |text| > MaxTextLength then p
    else
      var t := Task(id, text, false, p.form.category, p.form.priority, p.form.dueDate, [], createdAt);
      p.(todoList := p.todoList + [t], form := InitialForm)
  }

  /** `deleteTask`: records the task and its position in the single undo slot, replacing
      any earlier one, and removes it. */
  function DeleteTask(p: Page, index: nat): (r: Page)
    requires index < |p.todoList|
    ensures r.deletedTask == Some(Deleted(p.todoList[index], index))
    ensures r.todoList == RemoveAt(p.todoList, index)
    ensures r.currentFilter == p.currentFilter && r.searchQuery == p.searchQuery && r.form == p.form
    ensures r.currentEditingNotes == p.currentEditingNotes && r.notesText == p.notesText
  {
    p.(todoList := RemoveAt(p.todoList, index), deletedTask := Some(Deleted(p.todoList[index], index)))
  }

  /** The undo timer's callback: the slot is emptied, the list is left alone. */
  function UndoExpired(p: Page): (r: Page)
    ensures r.deletedTask == None
    ensures r.todoList == p.todoList && r.currentEditingNotes == p.currentEditingNotes
    ensures r.currentFilter == p.currentFilter && r.searchQuery == p.searchQuery && r.form == p.form
    ensures r.notesText == p.notesText
  {
    p.(deletedTask := None)
  }

  /** `undoDelete`: re-inserts the pending task at its recorded position (clamped to the
      end) and empties the slot; without a pending task nothing happens. */
  function UndoDelete(p: Page): (r: Page)
    ensures p.deletedTask == None ==> r == p
    ensures r.deletedTask == None
    ensures p.deletedTask.Some? ==>
      r.todoList == InsertAt(p.todoList, p.deletedTask.value.index, p.deletedTask.value.task)
    ensures r.currentFilter == p.currentFilter && r.searchQuery == p.searchQuery && r.form == p.form
    ensures r.notesText == p.notesText && r.currentEditingNotes == p.currentEditingNotes
  {
    match p.deletedTask
    case None => p
    case Some(d) => p.(todoList := InsertAt(p.todoList, d.index, d.task), deletedTask := None)
  }

  /** `editTask`: the trimmed prompt answer replaces the text when the answer is neither
      cancelled nor blank; no length limit applies. */
  function EditTask(p: Page, index: int, answer: Option<string>): (r: Page)
    ensures !ValidIndex(p, index) || answer == None || IsBlank(answer.value) ==> r == p
    ensures ValidIndex(p, index) && answer.Some? && !IsBlank(answer.value) ==>
      && SameExceptAt(r.todoList, p.todoList, index)
      && r.todoList[index] == p.todoList[index].(text := Trim(answer.value))
      && r.deletedTask == p.deletedTask
      && r.currentFilter == p.currentFilter && r.searchQuery == p.searchQuery && r.form == p.form
      && r.notesText == p.notesText && r.currentEditingNotes == p.currentEditingNotes
  {
    if !ValidIndex(p, index) then p
    else match answer
      case None => p
      case Some(a) =>
        TrimEmptyIffBlank(a);
        if Trim(a) != [] then p.(todoList := p.todoList[index := p.todoList[index].(text := Trim(a))])
        else p
  }

  /** What `toggleComplete` does: the new page, and whether the confetti is shown. */
  datatype Toggled = Toggled(page: Page, confetti: bool)

  /** `toggleComplete`: flips `completed` of one task and shows confetti when it is now done. */
  function ToggleComplete(p: Page, index: int): (r: Toggled)
    ensures !ValidIndex(p, index) ==> r == Toggled(p, false)
    ensures ValidIndex(p, index) ==>
      && SameExceptAt(r.page.todoList, p.todoList, index)
      && r.page.todoList[index] == p.todoList[index].(completed := !p.todoList[index].completed)
      && r.confetti == r.page.todoList[index].completed
      && r.page.deletedTask == p.deletedTask
      && r.page.currentFilter == p.currentFilter && r.page.searchQuery == p.searchQuery
      && r.page.form == p.form && r.page.notesText == p.notesText
      && r.page.currentEditingNotes == p.currentEditingNotes
  {
    if ValidIndex(p, index) then
      var t := p.todoList[index].(completed := !p.todoList[index].completed);
      Toggled(p.(todoList := p.todoList[index := t]), t.completed)
    else Toggled(p, false)
  }

  /** `openNotesModal`: remembers the index and loads that task's notes into the text area. */
  function OpenNotesModal(p: Page, index: int): (r: Page)
    ensures r.currentEditingNotes == Some(index)
    ensures ValidIndex(p, index) ==> r.notesText == p.todoList[index].notes
    ensures !ValidIndex(p, index) ==> r.notesText == p.notesText
    ensures r.todoList == p.todoList && r.deletedTask == p.deletedTask
    ensures r.currentFilter == p.currentFilter && r.searchQuery == p.searchQuery && r.form == p.form
  {
    if ValidIndex(p, index) then p.(currentEditingNotes := Some(index), notesText := p.todoList[index].notes)
    else p.(currentEditingNotes := Some(index))
  }

  /** `saveNotes`: with an editing index naming a task, stores the trimmed text-area
      contents as its notes and forgets the index; otherwise nothing happens. */
  function SaveNotes(p: Page): (r: Page)
    ensures p.currentEditingNotes == None ==> r == p
    ensures p.currentEditingNotes.Some? && ValidIndex(p, p.currentEditingNotes.value) ==>
      var i := p.currentEditingNotes.value;
      && SameExceptAt(r.todoList, p.todoList, i)
      && r.todoList[i] == p.todoList[i].(notes := Trim(p.notesText))
      && r.currentEditingNotes == None
      && r.deletedTask == p.deletedTask
      && r.currentFilter == p.currentFilter && r.searchQuery == p.searchQuery && r.form == p.form
      && r.notesText == p.notesText
  {
    match p.currentEditingNotes
    case None => p
    case Some(i) =>
      if ValidIndex(p, i) then
        p.(todoList := p.todoList[i := p.todoList[i].(notes := Trim(p.notesText))], currentEditingNotes := None)
      else p
  }

  /** `cancelNotes`: forgets the editing index; no task changes. */
  function CancelNotes(p: Page): (r: Page)
    ensures r.currentEditingNotes == None && r.todoList == p.todoList
    ensures r.deletedTask == p.deletedTask && r.notesText == p.notesText
    ensures r.currentFilter == p.currentFilter && r.searchQuery == p.searchQuery && r.form == p.form
  {
    p.(currentEditingNotes := None)
  }

  /** Opening the notes of a task and cancelling leaves the page as it was, except that the
      text area now holds that task's notes. */
  lemma OpenThenCancelNotes(p: Page, index: int)
    requires ValidIndex(p, index) && p.currentEditingNotes == None
    ensures CancelNotes(OpenNotesModal(p, index)) == p.(notesText := p.todoList[index].notes)
  {
  }

  /** `completeAll`: when confirmed, marks every task completed. */
  function CompleteAll(p: Page, confirmed: bool): (r: Page)
    ensures !confirmed ==> r == p
    ensures confirmed ==>
      && |r.todoList| == |p.todoList|
      && forall k :: 0 <= k < |p.todoList| ==> r.todoList[k] == p.todoList[k].(completed := true)
    ensures r.deletedTask == p.deletedTask && r.currentEditingNotes == p.currentEditingNotes
    ensures r.currentFilter == p.currentFilter && r.searchQuery == p.searchQuery && r.form == p.form
    ensures r.notesText == p.notesText
  {
    if confirmed then
      p.(todoList := seq(|p.todoList|, k requires 0 <= k < |p.todoList| => p.todoList[k].(completed := true)))
    else p
  }

  /** `deleteAll`: when confirmed, empties the list; the undo slot is not touched. */
  function DeleteAll(p: Page, confirmed: bool): (r: Page)
    ensures !confirmed ==> r == p
    ensures confirmed ==> r.todoList == []
    ensures r.deletedTask == p.deletedTask && r.currentEditingNotes == p.currentEditingNotes
    ensures r.currentFilter == p.currentFilter && r.searchQuery == p.searchQuery && r.form == p.form
    ensures r.notesText == p.notesText
  {
    if confirmed then p.(todoList := []) else p
  }

  /** `handleDrop` as written. `dragged` is the global `draggedIndex`: the `data-index` of
      the row whose drag started, or `None` (null) when the drag did not start on a row, for
      instance text or a file dragged in from elsewhere. The target is a row, so `dropIndex`
      is its `data-index`, and a drop on the dragged row itself does nothing. Otherwise the
      task at `draggedIndex` is read and spliced in at the drop index; when `draggedIndex`
      is null or names no task that value is `undefined` (and `splice(null, 1)` removes the
      first task as well). */
  function HandleDropAsWritten(p: Page, dragged: Option<int>, dropIndex: nat): (r: Spliced<Page>)
    ensures r.HoldsUndefined? <==>
      dragged == None || (dragged.value != dropIndex && !ValidIndex(p, dragged.value))
    ensures r.Clean? ==> r.value == HandleDrop(p, dragged, dropIndex)
  {
    match dragged
    case None => HoldsUndefined
    case Some(d) =>
      if d == dropIndex then Clean(p)
      else if ValidIndex(p, d) then Clean(p.(todoList := Move(p.todoList, d, dropIndex)))
      else HoldsUndefined
  }

  /** Dragging a selected word from the search box onto the first row of a non-empty list
      stores `undefined` in the list. */
  lemma ForeignDragCorrupts(p: Page)
    requires |p.todoList| > 0
    ensures HandleDropAsWritten(p, None, 0).HoldsUndefined?
  {
  }

  /** `handleDrop` with the drag source checked: it reorders only when the drag started on a
      row whose index names a task other than the target; the dragged task then lands at
      the drop index. Anything else changes nothing. */
  function HandleDrop(p: Page, dragged: Option<int>, dropIndex: nat): (r: Page)
    ensures (dragged == None || dragged.value == dropIndex || !ValidIndex(p, dragged.value)) ==> r == p
    ensures dragged.Some? && dragged.value != dropIndex && ValidIndex(p, dragged.value) ==>
      && |r.todoList| == |p.todoList| && multiset(r.todoList) == multiset(p.todoList)
      && r.todoList[Dest(dropIndex, |p.todoList|)] == p.todoList[dragged.value]
      && RemoveAt(r.todoList, Dest(dropIndex, |p.todoList|)) == RemoveAt(p.todoList, dragged.value)
      && r.deletedTask == p.deletedTask && r.currentEditingNotes == p.currentEditingNotes
      && r.currentFilter == p.currentFilter && r.searchQuery == p.searchQuery && r.form == p.form
      && r.notesText == p.notesText
  {
    match dragged
    case None => p
    case Some(d) =>
      if d != dropIndex && ValidIndex(p, d) then p.(todoList := Move(p.todoList, d, dropIndex))
      else p
  }

  /** `getFilteredTasks`: the status filter, then the case-insensitive search; the tasks the
      page's filter and query show, in list order, each as often as it is in the list. */
  function GetFilteredTasks(p: Page): (r: seq<Task>)
    ensures Views.IsSubsequence(r, p.todoList)
    ensures forall t ::
              multiset(r)[t] == if Views.Shown(p.currentFilter, p.searchQuery, t) then multiset(p.todoList)[t] else 0
  {
    Views.FilterTasks(p.todoList, p.currentFilter, p.searchQuery)
  }

  /** `updateStats`: the figures of the statistics bar, counted from the list. */
  function UpdateStats(p: Page): (st: Views.Stats)
    ensures st.total == |p.todoList| && st.completed == |Views.CompletedPositions(p.todoList)|
    ensures st.completed <= st.total && st.pending == st.total - st.completed
    ensures st.rate == Views.Rate(st.completed, st.total)
  {
    Views.ComputeStats(p.todoList)
  }

  /** Both variants show the same list and the same statistics for the same tasks and settings. */
  lemma ViewsAgree(p: Page)
    ensures GetFilteredTasks(p) == TasksSlice.SelectFilteredTasks(AsSlice(p))
    ensures UpdateStats(p) == TasksSlice.SelectTaskStats(AsSlice(p))
  {
  }

  /** Adding through the page and adding through the React form and reducer give the same
      list and the same reset form. */
  lemma AddAgrees(p: Page, id: int, createdAt: string)
    ensures var out := InputSection.HandleAddTask(p.form);
      && AddTask(p, id, createdAt).form == out.form
      && AsSlice(AddTask(p, id, createdAt)) ==
         (if out.dispatched.Some? then TasksSlice.AddTask(AsSlice(p), out.dispatched.value, id, createdAt)
          else AsSlice(p))
  {
  }

  /** Delete, undo, expiry, reorder and the confirmed bulk actions of the page are the
      Redux reducers on the same state. */
  lemma {:induction false} ReducersAgree(p: Page, index: nat, drop: nat)
    requires index < |p.todoList|
    ensures AsSlice(DeleteTask(p, index)) == TasksSlice.DeleteTask(AsSlice(p), index)
    ensures AsSlice(UndoDelete(p)) == TasksSlice.UndoDelete(AsSlice(p))
    ensures AsSlice(UndoExpired(p)) == TasksSlice.ClearDeletedTask(AsSlice(p))
    ensures AsSlice(HandleDrop(p, Some(index), drop)) == TasksSlice.ReorderTasks(AsSlice(p), index, drop)
    ensures AsSlice(CompleteAll(p, true)) == TasksSlice.CompleteAll(AsSlice(p))
    ensures AsSlice(DeleteAll(p, true)) == TasksSlice.DeleteAll(AsSlice(p))
  {
    if index == drop {
      MoveToSelf(p.todoList, index);
    }
  }

  /** With distinct ids, editing and toggling a row by its index on the page matches the
      React row handlers for that row's task, confetti included. */
  lemma {:induction false} RowHandlersAgree(p: Page, i: nat, answer: Option<string>)
    requires i < |p.todoList| && UniqueIds(p.todoList)
    ensures AsSlice(EditTask(p, i, answer)) == TaskItem.HandleEdit(AsSlice(p), p.todoList[i], answer)
    ensures var v := ToggleComplete(p, i);
      var w := TaskItem.HandleToggle(AsSlice(p), p.todoList[i]);
      AsSlice(v.page) == w.state && v.confetti == w.celebrate
  {
    TaskItem.ActualIndexOfMember(p.todoList, i);
  }

  /** Undo after a confirmed delete-all still restores the pending task, into the empty list. */
  lemma DeleteAllThenUndo(p: Page)
    requires p.deletedTask.Some?
    ensures UndoDelete(DeleteAll(p, true)).todoList == [p.deletedTask.value.task]
  {
  }

  /** With distinct ids, dropping on the row at `i` of the page and dropping on the same
      row of the React list move the same task to the same place. */
  lemma {:induction false} RowDropAgrees(p: Page, i: nat, dragged: Option<int>)
    requires i < |p.todoList| && UniqueIds(p.todoList)
    ensures AsSlice(HandleDrop(p, dragged, i)) == TaskItem.HandleDrop(AsSlice(p), p.todoList[i], dragged)
  {
    TaskItem.ActualIndexOfMember(p.todoList, i);
  }

  /** Deleting the row at `i` of the page and deleting the same row of the React list
      remove the same task and keep the same undo record. */
  lemma {:induction false} RowDeleteAgrees(p: Page, i: nat)
    requires i < |p.todoList| && UniqueIds(p.todoList)
    ensures AsSlice(DeleteTask(p, i)) == TaskItem.HandleDelete(AsSlice(p), p.todoList[i])
  {
    TaskItem.ActualIndexOfMember(p.todoList, i);
  }

  /** Opening the notes of a task loads the same text into the page's text area as into
      the React modal's draft, and both remember the same index. */
  lemma NotesOpenAgrees(p: Page, u: UiSlice.Ui, i: int, draft: string)
    requires ValidIndex(p, i)
    ensures var afterOpen := UiSlice.OpenNotesModal(u, i);
      && OpenNotesModal(p, i).notesText == NotesModal.DraftOnOpen(afterOpen, p.todoList, draft)
      && OpenNotesModal(p, i).currentEditingNotes == afterOpen.currentEditingNotes
  {
  }

  /** Saving with an index that names a task stores the same trimmed notes on both
      variants and forgets the index on both. */
  lemma NotesSaveAgrees(p: Page, u: UiSlice.Ui)
    requires u.currentEditingNotes == p.currentEditingNotes
    requires p.currentEditingNotes.Some? && ValidIndex(p, p.currentEditingNotes.value)
    ensures var step := NotesModal.HandleSave(u, AsSlice(p), p.notesText);
      && AsSlice(SaveNotes(p)) == step.state
      && SaveNotes(p).currentEditingNotes == step.ui.currentEditingNotes
  {
  }

  /** Where the variants differ: saving with an index that names no task throws on the page,
      which keeps the modal's index, while the React modal dispatches a no-op and closes. */
  lemma StaleNotesSaveDiffers(p: Page, u: UiSlice.Ui)
    requires u.currentEditingNotes == p.currentEditingNotes
    requires p.currentEditingNotes.Some? && !ValidIndex(p, p.currentEditingNotes.value)
    ensures var step := NotesModal.HandleSave(u, AsSlice(p), p.notesText);
      && AsSlice(SaveNotes(p)) == step.state
      && SaveNotes(p).currentEditingNotes == p.currentEditingNotes
      && step.ui.currentEditingNotes == None
  {
  }

  /** Ctrl+Z while the notes modal is open: `undoDelete` leaves `currentEditingNotes` alone.
      With `a` deleted from position 0 and the notes of `b` (then at position 0) open, the
      undo puts `a` back in front of `b`, and Save writes the text area to `a`. */
  lemma UndoRetargetsNotes(a: Task, b: Task, text: string)
    ensures var p := Page([b], FilterAll, [], Some(Deleted(a, 0)), None, [], InitialForm);
      var afterOpen := OpenNotesModal(p, 0);
      && afterOpen.notesText == b.notes
      && SaveNotes(UndoDelete(afterOpen.(notesText := text))).todoList == [a.(notes := Trim(text)), b]
  {
    var p := Page([b], FilterAll, [], Some(Deleted(a, 0)), None, [], InitialForm);
    assert UndoDelete(OpenNotesModal(p, 0).(notesText := text)).todoList == [a, b];
  }

  /** Ctrl+Z while the notes modal is open, with the editing index moved along with the task
      it names; the text area is left alone. */
  function UndoWhileEditing(p: Page): (r: Page)
    ensures AsSlice(r) == TasksSlice.UndoDelete(AsSlice(p))
    ensures r.notesText == p.notesText && r.form == p.form
    ensures p.currentEditingNotes == None ==> r.currentEditingNotes == None
    ensures p.currentEditingNotes.Some? && ValidIndex(p, p.currentEditingNotes.value) ==>
      && r.currentEditingNotes.Some?
      && ValidIndex(r, r.currentEditingNotes.value)
      && r.todoList[r.currentEditingNotes.value] == p.todoList[p.currentEditingNotes.value]
  {
    var undone := UndoDelete(p);
    match p.currentEditingNotes
    case None => undone
    case Some(i) => undone.(currentEditingNotes := Some(TasksSlice.FollowUndo(AsSlice(p), i)))
  }

  /** After that undo, Save stores the text area on the task whose notes were open, and no
      other task changes. */
  lemma {:induction false} SaveAfterUndoKeepsTarget(p: Page, i: nat)
    requires p.currentEditingNotes == Some(i) && i < |p.todoList|
    ensures var q := UndoWhileEditing(p);
      var j := q.currentEditingNotes.value;
      && 0 <= j < |SaveNotes(q).todoList|
      && SaveNotes(q).todoList[j] == p.todoList[i].(notes := Trim(p.notesText))
      && SameExceptAt(SaveNotes(q).todoList, UndoDelete(p).todoList, j)
  {
  }
}

=== FILE: task_item.dfy ===
/** The task row component: how it finds the task's position in the full list and
    which actions it dispatches from its buttons, checkbox and drop target. */
module TaskItem {
  import opened Optional
  import opened Text
  import opened Splice
  import opened TaskModel
  import opened TasksSlice
  import UiSlice

  /** `allTasks.findIndex(t => t.id === id)`: the first position in the full list whose
      task has this id, or -1. It is the row's position in the store, not its position
      in the displayed list. */
  function ActualIndex(all: seq<Task>, id: int): (r: int)
    ensures -1 <= r < |all|
    ensures r >= 0 ==> all[r].id == id && forall j :: 0 <= j < r ==> all[j].id != id
    ensures r == -1 <==> forall j :: 0 <= j < |all| ==> all[j].id != id
  {
    if |all| == 0 then -1
    else if all[0].id == id then 0
    else
      var k := ActualIndex(all[1..], id);
      assert forall j :: 1 <= j < |all| ==> all[j] == all[1..][j - 1];
      if k == -1 then -1 else k + 1
  }

  /** With distinct ids, the row's actual index is the position of the very task it shows. */
  lemma {:induction false} ActualIndexOfMember(all: seq<Task>, i: nat)
    requires i < |all| && UniqueIds(all)
    ensures ActualIndex(all, all[i].id) == i
  {
  }

  /** The row's task is in the store's list, as every rendered row's task is. */
  predicate Rendered(s: State, task: Task) {
    task in s.tasks
  }

  /** A rendered row has an actual index; with distinct ids it points at the row's own task. */
  lemma {:induction false} RenderedHasIndex(s: State, task: Task)
    requires Rendered(s, task)
    ensures 0 <= ActualIndex(s.tasks, task.id) < |s.tasks|
    ensures UniqueIds(s.tasks) ==> s.tasks[ActualIndex(s.tasks, task.id)] == task
  {
    var j :| 0 <= j < |s.tasks| && s.tasks[j] == task;
    assert s.tasks[j].id == task.id;
    if UniqueIds(s.tasks) {
      ActualIndexOfMember(s.tasks, j);
    }
  }

  /** `handleDelete`: deletes at the actual index. The task removed and kept for undo has
      the row's id; with distinct ids it is the row's task itself. */
  function HandleDelete(s: State, task: Task): (r: State)
    requires Rendered(s, task)
    ensures 0 <= ActualIndex(s.tasks, task.id) < |s.tasks|
    ensures r.tasks == RemoveAt(s.tasks, ActualIndex(s.tasks, task.id))
    ensures r.deletedTask.Some? && r.deletedTask.value.task.id == task.id
    ensures r.deletedTask.value.index == ActualIndex(s.tasks, task.id)
    ensures UniqueIds(s.tasks) ==> r.deletedTask.value.task == task
    ensures r.filter == s.filter && r.searchQuery == s.searchQuery
  {
    RenderedHasIndex(s, task);
    DeleteTask(s, ActualIndex(s.tasks, task.id))
  }

  /** Undo right after deleting a row puts the list back as it was. */
  lemma {:induction false} DeleteRowThenUndo(s: State, task: Task)
    requires Rendered(s, task)
    ensures UndoDelete(HandleDelete(s, task)).tasks == s.tasks
    ensures UndoDelete(HandleDelete(s, task)).deletedTask == None
  {
    RenderedHasIndex(s, task);
    DeleteThenUndo(s, ActualIndex(s.tasks, task.id));
  }

  /** `handleEdit`: the prompt's answer, trimmed, becomes the text of the task at the
      actual index; a cancelled prompt (`None`) or a blank answer dispatches nothing. */
  function HandleEdit(s: State, task: Task, answer: Option<string>): (r: State)
    ensures answer == None || IsBlank(answer.value) ==> r == s
    ensures answer.Some? && !IsBlank(answer.value) ==>
      var k := ActualIndex(s.tasks, task.id);
      && SameExceptAt(r.tasks, s.tasks, k)
      && (k >= 0 ==> r.tasks[k] == s.tasks[k].(text := Trim(answer.value)))
      && r.deletedTask == s.deletedTask
      && r.filter == s.filter && r.searchQuery == s.searchQuery
  {
    match answer
    case None => s
    case Some(a) =>
      TrimEmptyIffBlank(a);
      if Trim(a) != [] then EditTask(s, ActualIndex(s.tasks, task.id), Trim(a)) else s
  }

  /** An accepted edit on a rendered row with distinct ids renames exactly that row's task. */
  lemma {:induction false} EditRenamesRow(s: State, i: nat, answer: string)
    requires i < |s.tasks| && UniqueIds(s.tasks) && !IsBlank(answer)
    ensures var r := HandleEdit(s, s.tasks[i], Some(answer));
      && SameExceptAt(r.tasks, s.tasks, i)
      && r.tasks[i] == s.tasks[i].(text := Trim(answer))
  {
    ActualIndexOfMember(s.tasks, i);
  }

  /** What `handleToggle` does: the new state, and whether the celebration fires. */
  datatype Toggled = Toggled(state: State, celebrate: bool)

  /** `handleToggle`: always dispatches the toggle for the actual index; celebrates when the
      row's task was not completed before. */
  function HandleToggle(s: State, task: Task): (r: Toggled)
    ensures r.celebrate == !task.completed
    ensures var k := ActualIndex(s.tasks, task.id);
      && SameExceptAt(r.state.tasks, s.tasks, k)
      && (k >= 0 ==> r.state.tasks[k] == s.tasks[k].(completed := !s.tasks[k].completed))
      && r.state.deletedTask == s.deletedTask
      && r.state.filter == s.filter && r.state.searchQuery == s.searchQuery
  {
    Toggled(ToggleComplete(s, ActualIndex(s.tasks, task.id)), !task.completed)
  }

  /** With distinct ids, the celebration fires exactly when the row's task goes from open to done. */
  lemma {:induction false} CelebrateOnCompletion(s: State, i: nat)
    requires i < |s.tasks| && UniqueIds(s.tasks)
    ensures var r := HandleToggle(s, s.tasks[i]);
      r.celebrate <==> (!s.tasks[i].completed && r.state.tasks[i].completed)
  {
    ActualIndexOfMember(s.tasks, i);
  }

  /** `handleNotes`: opens the notes modal on the actual index. */
  function HandleNotes(u: UiSlice.Ui, s: State, task: Task): (r: UiSlice.Ui)
    ensures r.notesModalOpen && r.currentEditingNotes == Some(ActualIndex(s.tasks, task.id))
    ensures r.shortcutsModalOpen == u.shortcutsModalOpen && r.undoToastVisible == u.undoToastVisible
  {
    UiSlice.OpenNotesModal(u, ActualIndex(s.tasks, task.id))
  }

  /** `handleDrop` on this row as written. `dragged` is `parseInt` of whatever text the drop
      carries (`None` for NaN): the index set by another row's drag start, but equally any
      number dragged in from outside the list. Every number other than this row's actual
      index is dispatched; when it names no task the reducer reads `undefined` and splices it
      into the list. */
  function HandleDropAsWritten(s: State, task: Task, dragged: Option<int>): (r: Spliced<State>)
    requires Rendered(s, task)
    ensures r.HoldsUndefined? <==>
      dragged.Some? && dragged.value != ActualIndex(s.tasks, task.id) && !(0 <= dragged.value < |s.tasks|)
    ensures r.Clean? ==> r.value == HandleDrop(s, task, dragged)
  {
    RenderedHasIndex(s, task);
    var target := ActualIndex(s.tasks, task.id);
    match dragged
    case None => Clean(s)
    case Some(d) =>
      if d == target then Clean(s)
      else if 0 <= d < |s.tasks| then Clean(ReorderTasks(s, d, target))
      else HoldsUndefined
  }

  /** Dropping the text "7" on a row of a three-task list stores `undefined` in the list,
      and so does "-1", although `splice(-1, 1)` also removes the last task first. */
  lemma ForeignNumberCorrupts(s: State, task: Task)
    requires Rendered(s, task) && |s.tasks| == 3
    ensures HandleDropAsWritten(s, task, Some(7)).HoldsUndefined?
    ensures HandleDropAsWritten(s, task, Some(-1)).HoldsUndefined?
  {
    RenderedHasIndex(s, task);
  }

  /** `handleDrop` on this row with the index checked: it reorders only when the dragged index
      names a task other than this row's; the dragged task then lands on this row's position.
      Anything else (no number, this row itself, a number naming no task) changes nothing. */
  function HandleDrop(s: State, task: Task, dragged: Option<int>): (r: State)
    requires Rendered(s, task)
    ensures |r.tasks| == |s.tasks| && 0 <= ActualIndex(s.tasks, task.id) < |r.tasks|
    ensures (dragged == None || dragged.value == ActualIndex(s.tasks, task.id) ||
             !(0 <= dragged.value < |s.tasks|)) ==> r == s
    ensures dragged.Some? && dragged.value != ActualIndex(s.tasks, task.id) && 0 <= dragged.value < |s.tasks| ==>
      && multiset(r.tasks) == multiset(s.tasks)
      && r.tasks[ActualIndex(s.tasks, task.id)] == s.tasks[dragged.value]
      && RemoveAt(r.tasks, ActualIndex(s.tasks, task.id)) == RemoveAt(s.tasks, dragged.value)
      && r.deletedTask == s.deletedTask && r.filter == s.filter && r.searchQuery == s.searchQuery
  {
    RenderedHasIndex(s, task);
    var target := ActualIndex(s.tasks, task.id);
    match dragged
    case None => s
    case Some(d) => if d != target && 0 <= d < |s.tasks| then ReorderTasks(s, d, target) else s
  }
}

=== FILE: task_model.dfy ===
/** The records the task list stores and the values it is configured with. */
module TaskModel {
  import opened Optional
  import opened Text

  /** One to-do item. `id` is the creation timestamp in milliseconds; `createdAt`
      the ISO creation time; `dueDate` the date input's value ('' when none). */
  datatype Task = Task(
    id: int,
    text: string,
    completed: bool,
    category: string,
    priority: string,
    dueDate: string,
    notes: string,
    createdAt: string)

  /** The single undo slot: the removed task and the position it was removed from. */
  datatype Deleted = Deleted(task: Task, index: nat)

  /** The object handed to the add reducer. Its fields are spread into the new task;
      `completed` is present only when the caller sends one. */
  datatype TaskPayload = TaskPayload(
    text: string,
    category: string,
    priority: string,
    dueDate: string,
    notes: string,
    completed: Option<bool>)

  /** The add-task form: text input, category and priority selects, date input. */
  datatype Form = Form(text: string, category: string, priority: string, dueDate: string)

  /** The longest task text the add form accepts. */
  const MaxTextLength: nat := 200

  /** The priority the add form starts with. */
  const PriorityMedium := "medium"

  const FilterAll := "all"
  const FilterActive := "active"
  const FilterCompleted := "completed"

  /** Text the add form accepts: non-blank after trimming and at most 200 characters long. */
  predicate AcceptableText(text: string) {
    var t := Trim(text);
    t != [] && |t| <= MaxTextLength
  }

  /** The form's state on first render, and the state it is reset to after a successful add. */
  const InitialForm := Form("", "", PriorityMedium, "")

  predicate IsDone(t: Task) { t.completed }

  predicate IsActive(t: Task) { !t.completed }

  /** No two tasks share an id. The code does not enforce this (ids are clock readings);
      it is an assumption some lemmas take, never a guarantee. */
  predicate UniqueIds(tasks: seq<Task>) {
    forall i, j :: 0 <= i < j < |tasks| ==> tasks[i].id != tasks[j].id
  }

  /** `a` and `b` have the same length and agree everywhere except possibly at position `i`. */
  predicate SameExceptAt(a: seq<Task>, b: seq<Task>, i: int) {
    |a| == |b| && forall j :: 0 <= j < |a| && j != i ==> a[j] == b[j]
  }
}

=== FILE: tasks_slice.dfy ===
/** The Redux tasks slice: the reducers of the task list and its two selectors.
    Every reducer is a pure function from the old slice state to the new one; the
    write to browser storage that follows each task mutation is not modelled. */
module TasksSlice {
  import opened Optional
  import opened Splice
  import opened TaskModel
  import Views
  import Text

  /** The slice state: the ordered tasks, the two view settings and the undo slot. */
  datatype State = State(
    tasks: seq<Task>,
    filter: string,
    searchQuery: string,
    deletedTask: Option<Deleted>)

  /** The state after start-up, given the tasks read back from storage. */
  function Initial(loaded: seq<Task>): (s: State)
    ensures s.tasks == loaded && s.deletedTask == None
    ensures s.filter == FilterAll && s.searchQuery == []
    ensures Views.FilterTasks(s.tasks, s.filter, s.searchQuery) == loaded
  {
    var s := State(loaded, FilterAll, [], None);
    Views.FilterAllShowsEverything(loaded, FilterAll);
    s
  }

  /** The task `addTask` builds: the payload's fields, then a fresh id, `completed`
      forced to false and the creation time. */
  function NewTask(payload: TaskPayload, id: int, createdAt: string): Task {
    Task(id, payload.text, false, payload.category, payload.priority,
         payload.dueDate, payload.notes, createdAt)
  }

  /** `addTask`: appends one task at the end. It is never completed, whatever the payload says. */
  function AddTask(s: State, payload: TaskPayload, id: int, createdAt: string): (r: State)
    ensures |r.tasks| == |s.tasks| + 1
    ensures r.tasks[..|s.tasks|] == s.tasks
    ensures !r.tasks[|s.tasks|].completed
    ensures r.tasks[|s.tasks|].text == payload.text && r.tasks[|s.tasks|].notes == payload.notes
    ensures r.tasks[|s.tasks|].id == id && r.tasks[|s.tasks|].createdAt == createdAt
    ensures var t := r.tasks[|s.tasks|];
      t.category == payload.category && t.priority == payload.priority && t.dueDate == payload.dueDate
    ensures r.filter == s.filter && r.searchQuery == s.searchQuery && r.deletedTask == s.deletedTask
  {
    s.(tasks := s.tasks + [NewTask(payload, id, createdAt)])
  }

  /** `deleteTask`: removes the task at `index` and keeps it, with its position, in the
      undo slot, replacing whatever was there. */
  function DeleteTask(s: State, index: nat): (r: State)
    requires index < |s.tasks|
    ensures |r.tasks| == |s.tasks| - 1
    ensures r.tasks[..index] == s.tasks[..index]
    ensures r.tasks[index..] == s.tasks[index + 1..]
    ensures r.deletedTask == Some(Deleted(s.tasks[index], index))
    ensures r.filter == s.filter && r.searchQuery == s.searchQuery
  {
    s.(tasks := RemoveAt(s.tasks, index), deletedTask := Some(Deleted(s.tasks[index], index)))
  }

  /** `undoDelete`: puts the task from the undo slot back at its recorded position
      (at the end if the list has become shorter than that) and empties the slot.
      With an empty slot nothing happens. */
  function UndoDelete(s: State): (r: State)
    ensures s.deletedTask == None ==> r == s
    ensures r.deletedTask == None
    ensures r.filter == s.filter && r.searchQuery == s.searchQuery
    ensures s.deletedTask.Some? ==>
      var d := s.deletedTask.value;
      && |r.tasks| == |s.tasks| + 1
      && r.tasks[Clamp(d.index, |s.tasks|)] == d.task
      && RemoveAt(r.tasks, Clamp(d.index, |s.tasks|)) == s.tasks
  {
    match s.deletedTask
    case None => s
    case Some(d) =>
      RemoveInsertRoundTrip(s.tasks, d.index, d.task);
      s.(tasks := InsertAt(s.tasks, d.index, d.task), deletedTask := None)
  }

  /** Where the task at position `i` sits after `undoDelete`: one further along when the
      restored task goes back in at or before it. A position naming no task is left as is. */
  function FollowUndo(s: State, i: int): (j: int)
    ensures 0 <= i < |s.tasks| ==> 0 <= j < |UndoDelete(s).tasks| && UndoDelete(s).tasks[j] == s.tasks[i]
    ensures !(0 <= i < |s.tasks|) || s.deletedTask == None ==> j == i
    ensures s.deletedTask.Some? && 0 <= i < |s.tasks| ==>
      j == if Clamp(s.deletedTask.value.index, |s.tasks|) <= i then i + 1 else i
  {
    match s.deletedTask
    case None => i
    case Some(d) =>
      var p := Clamp(d.index, |s.tasks|);
      if 0 <= i < |s.tasks| && p <= i then
        var r := UndoDelete(s).tasks;
        assert r[p + 1..] == s.tasks[p..];
        assert r[i + 1] == r[p + 1..][i - p];
        i + 1
      else if 0 <= i < |s.tasks| then
        var r := UndoDelete(s).tasks;
        assert r[..p] == s.tasks[..p];
        assert r[i] == r[..p][i];
        i
      else i
  }

  /** `clearDeletedTask`, dispatched when the undo window expires: the slot is emptied
      and the tasks are left alone. */
  function ClearDeletedTask(s: State): (r: State)
    ensures r.deletedTask == None
    ensures r.tasks == s.tasks && r.filter == s.filter && r.searchQuery == s.searchQuery
  {
    s.(deletedTask := None)
  }

  /** `index` names a task: JavaScript's `tasks[index]` is a task object rather than undefined. */
  predicate ValidIndex(s: State, index: int) {
    0 <= index < |s.tasks|
  }

  /** `editTask`: replaces the text of the task at `index`; an index that names no task
      changes nothing. The text is stored as given (no trimming, no length limit). */
  function EditTask(s: State, index: int, text: string): (r: State)
    ensures !ValidIndex(s, index) ==> r == s
    ensures ValidIndex(s, index) ==>
      && SameExceptAt(r.tasks, s.tasks, index)
      && r.tasks[index] == s.tasks[index].(text := text)
    ensures r.filter == s.filter && r.searchQuery == s.searchQuery && r.deletedTask == s.deletedTask
  {
    if ValidIndex(s, index) then s.(tasks := s.tasks[index := s.tasks[index].(text := text)])
    else s
  }

  /** `toggleComplete`: flips `completed` of the task at `index`; an index that names no
      task changes nothing. */
  function ToggleComplete(s: State, index: int): (r: State)
    ensures !ValidIndex(s, index) ==> r == s
    ensures ValidIndex(s, index) ==>
      && SameExceptAt(r.tasks, s.tasks, index)
      && r.tasks[index].completed != s.tasks[index].completed
      && r.tasks[index] == s.tasks[index].(completed := r.tasks[index].completed)
    ensures r.filter == s.filter && r.searchQuery == s.searchQuery && r.deletedTask == s.deletedTask
  {
    if ValidIndex(s, index) then
      s.(tasks := s.tasks[index := s.tasks[index].(completed := !s.tasks[index].completed)])
    else s
  }

  /** Toggling the same task twice restores the state. */
  lemma ToggleTwice(s: State, index: int)
    ensures ToggleComplete(ToggleComplete(s, index), index) == s
  {
    if ValidIndex(s, index) {
      var once := ToggleComplete(s, index);
      assert once.tasks[index := once.tasks[index].(completed := !once.tasks[index].completed)] == s.tasks;
    }
  }

  /** `updateTaskNotes`: replaces the notes of the task at `index`; an index that names no
      task changes nothing. */
  function UpdateTaskNotes(s: State, index: int, notes: string): (r: State)
    ensures !ValidIndex(s, index) ==> r == s
    ensures ValidIndex(s, index) ==>
      && SameExceptAt(r.tasks, s.tasks, index)
      && r.tasks[index] == s.tasks[index].(notes := notes)
    ensures r.filter == s.filter && r.searchQuery == s.searchQuery && r.deletedTask == s.deletedTask
  {
    if ValidIndex(s, index) then s.(tasks := s.tasks[index := s.tasks[index].(notes := notes)])
    else s
  }

  /** `reorderTasks`: the dragged task is spliced out and spliced back in at `dropIndex`.
      The tasks are permuted, the dragged one lands at the drop position (the last slot
      if the drop position is beyond it) and the others keep their relative order. */
  function ReorderTasks(s: State, dragIndex: nat, dropIndex: nat): (r: State)
    requires dragIndex < |s.tasks|
    ensures |r.tasks| == |s.tasks|
    ensures multiset(r.tasks) == multiset(s.tasks)
    ensures r.tasks[Dest(dropIndex, |s.tasks|)] == s.tasks[dragIndex]
    ensures RemoveAt(r.tasks, Dest(dropIndex, |s.tasks|)) == RemoveAt(s.tasks, dragIndex)
    ensures dragIndex == dropIndex ==> r == s
    ensures r.filter == s.filter && r.searchQuery == s.searchQuery && r.deletedTask == s.deletedTask
  {
    MoveToSelf(s.tasks, dragIndex);
    s.(tasks := Move(s.tasks, dragIndex, dropIndex))
  }

  /** `completeAll`: every task is marked completed and nothing else about it changes. */
  function CompleteAll(s: State): (r: State)
    ensures |r.tasks| == |s.tasks|
    ensures forall k :: 0 <= k < |s.tasks| ==> r.tasks[k] == s.tasks[k].(completed := true)
    ensures r.filter == s.filter && r.searchQuery == s.searchQuery && r.deletedTask == s.deletedTask
  {
    s.(tasks := seq(|s.tasks|, k requires 0 <= k < |s.tasks| => s.tasks[k].(completed := true)))
  }

  /** Completing everything a second time changes nothing. */
  lemma CompleteAllIdempotent(s: State)
    ensures CompleteAll(CompleteAll(s)) == CompleteAll(s)
  {
  }

  /** After `completeAll` the statistics show every task done and, for a non-empty list,
      a rate of 100. */
  lemma {:induction false} CompleteAllStats(s: State)
    ensures Views.ComputeStats(CompleteAll(s).tasks).completed == |s.tasks|
    ensures |s.tasks| > 0 ==> Views.ComputeStats(CompleteAll(s).tasks).rate == 100
  {
    var t := CompleteAll(s).tasks;
    Views.WhereKeepsAll(t, IsDone);
  }

  /** `deleteAll`: the list is emptied; the undo slot is left as it was. */
  function DeleteAll(s: State): (r: State)
    ensures r.tasks == []
    ensures r.filter == s.filter && r.searchQuery == s.searchQuery && r.deletedTask == s.deletedTask
  {
    s.(tasks := [])
  }

  /** `setFilter`: stores the payload as the status filter; only the view changes. */
  function SetFilter(s: State, filter: string): (r: State)
    ensures r.filter == filter
    ensures r.tasks == s.tasks && r.searchQuery == s.searchQuery && r.deletedTask == s.deletedTask
  {
    s.(filter := filter)
  }

  /** `setSearchQuery`: stores the payload as the search query; only the view changes. */
  function SetSearchQuery(s: State, query: string): (r: State)
    ensures r.searchQuery == query
    ensures r.tasks == s.tasks && r.filter == s.filter && r.deletedTask == s.deletedTask
  {
    s.(searchQuery := query)
  }

  /** `selectFilteredTasks`: the tasks the stored filter and query show, in store order,
      each as often as it is stored. */
  function SelectFilteredTasks(s: State): (r: seq<Task>)
    ensures Views.IsSubsequence(r, s.tasks)
    ensures forall t :: multiset(r)[t] == if Views.Shown(s.filter, s.searchQuery, t) then multiset(s.tasks)[t] else 0
  {
    Views.FilterTasks(s.tasks, s.filter, s.searchQuery)
  }

  /** `selectTaskStats`: the number of tasks, the number of completed positions, their
      difference and the rounded completion percentage. */
  function SelectTaskStats(s: State): (st: Views.Stats)
    ensures st.total == |s.tasks| && st.completed == |Views.CompletedPositions(s.tasks)|
    ensures st.completed <= st.total && st.pending == st.total - st.completed
    ensures st.rate == Views.Rate(st.completed, st.total)
  {
    Views.ComputeStats(s.tasks)
  }

  /** Deleting a task and undoing straight away restores the list exactly and empties the slot. */
  lemma {:induction false} DeleteThenUndo(s: State, index: nat)
    requires index < |s.tasks|
    ensures UndoDelete(DeleteTask(s, index)).tasks == s.tasks
    ensures UndoDelete(DeleteTask(s, index)).deletedTask == None
  {
    InsertRemoveRoundTrip(s.tasks, index);
  }

  /** A second undo in a row does nothing. */
  lemma UndoTwice(s: State)
    ensures UndoDelete(UndoDelete(s)) == UndoDelete(s)
  {
  }

  /** An undo whose recorded position lies beyond the current end appends the task. */
  lemma {:induction false} UndoClampsToEnd(s: State)
    requires s.deletedTask.Some? && s.deletedTask.value.index >= |s.tasks|
    ensures UndoDelete(s).tasks == s.tasks + [s.deletedTask.value.task]
  {
    var r := UndoDelete(s);
    assert r.tasks[..|s.tasks|] == s.tasks;
    assert r.tasks == r.tasks[..|s.tasks|] + [r.tasks[|s.tasks|]];
  }

  /** `deleteAll` keeps the undo slot, so an undo afterwards brings the pending task back
      as the only task. */
  lemma DeleteAllThenUndo(s: State)
    requires s.deletedTask.Some?
    ensures UndoDelete(DeleteAll(s)).tasks == [s.deletedTask.value.task]
  {
  }

  /** Undoing and then deleting at the position the task was put back at returns to the
      list before the undo, with the same pending entry when its index was in range. */
  lemma {:induction false} UndoThenDelete(s: State)
    requires s.deletedTask.Some?
    ensures var d := s.deletedTask.value;
      var p := Clamp(d.index, |s.tasks|);
      && DeleteTask(UndoDelete(s), p).tasks == s.tasks
      && DeleteTask(UndoDelete(s), p).deletedTask == Some(Deleted(d.task, p))
  {
  }

  /** Writing the old text back undoes an edit. */
  lemma {:induction false} EditRestored(s: State, index: int, text: string)
    requires ValidIndex(s, index)
    ensures EditTask(EditTask(s, index, text), index, s.tasks[index].text) == s
  {
    var r := EditTask(EditTask(s, index, text), index, s.tasks[index].text);
    assert r.tasks == s.tasks;
  }

  /** Writing the old notes back undoes a notes update. */
  lemma {:induction false} NotesRestored(s: State, index: int, notes: string)
    requires ValidIndex(s, index)
    ensures UpdateTaskNotes(UpdateTaskNotes(s, index, notes), index, s.tasks[index].notes) == s
  {
    var r := UpdateTaskNotes(UpdateTaskNotes(s, index, notes), index, s.tasks[index].notes);
    assert r.tasks == s.tasks;
  }

  /** Dragging the task back from where it landed to where it came from restores the order. */
  lemma {:induction false} ReorderUndone(s: State, dragIndex: nat, dropIndex: nat)
    requires dragIndex < |s.tasks|
    ensures ReorderTasks(ReorderTasks(s, dragIndex, dropIndex), Dest(dropIndex, |s.tasks|), dragIndex) == s
  {
    MoveBack(s.tasks, dragIndex, dropIndex);
  }

  /** Reordering never changes the statistics. */
  lemma {:induction false} ReorderKeepsStats(s: State, dragIndex: nat, dropIndex: nat)
    requires dragIndex < |s.tasks|
    ensures SelectTaskStats(ReorderTasks(s, dragIndex, dropIndex)) == SelectTaskStats(s)
  {
    Views.WhereCountPermutation(ReorderTasks(s, dragIndex, dropIndex).tasks, s.tasks, IsDone);
  }

  /** Adding a task adds one to the total and to the pending count and leaves the completed count. */
  lemma {:induction false} AddTaskStats(s: State, payload: TaskPayload, id: int, createdAt: string)
    ensures var before := SelectTaskStats(s);
      var after := SelectTaskStats(AddTask(s, payload, id, createdAt));
      && after.total == before.total + 1
      && after.completed == before.completed
      && after.pending == before.pending + 1
  {
    var t := NewTask(payload, id, createdAt);
    Views.WhereAppend(s.tasks, [t], IsDone);
  }

  /** The query "mi" matches "Milk" and "Mission" whatever their case. */
  lemma MiMatchesExample()
    ensures Text.Includes(Text.Lower("Milk"), Text.Lower("mi"))
    ensures Text.Includes(Text.Lower("Mission"), Text.Lower("mi"))
  {
    assert Text.Lower("Milk") == "milk";
    assert Text.Lower("Mission") == "mission";
    assert Text.Lower("mi") == "mi";
    assert Text.Includes("milk", "mi") by { assert "milk"[..2] == "mi"; }
    assert Text.Includes("mission", "mi") by { assert "mission"[..2] == "mi"; }
  }

  /** The worked example: with the 'active' filter and query "mi", the list
      Milk (open), Gym (done), Mission (open) displays Milk then Mission. */
  lemma ActiveSearchExample(milk: Task, gym: Task, mission: Task)
    requires milk.text == "Milk" && !milk.completed
    requires gym.text == "Gym" && gym.completed
    requires mission.text == "Mission" && !mission.completed
    ensures SelectFilteredTasks(State([milk, gym, mission], FilterActive, "mi", None)) == [milk, mission]
  {
    assert Views.ByStatus([milk, gym, mission], FilterActive) == [milk, mission] by {
      assert [milk, gym, mission][1..] == [gym, mission];
      assert [gym, mission][1..] == [mission];
      assert [mission][1..] == [];
      assert Views.Where([mission], IsActive) == [mission];
      assert Views.Where([gym, mission], IsActive) == [mission];
    }
    MiMatchesExample();
    assert [milk, mission][1..] == [mission];
  }
}

=== FILE: text.dfy ===
/** The three string built-ins the task list relies on: `String.prototype.trim`,
    `toLowerCase` and `includes`. Strings are sequences of Unicode scalar values. */
module Text {

  /** The characters `trim` removes: the Unicode space separators, the
      ECMAScript WhiteSpace extras (tab, vertical tab, form feed, BOM) and the
      four LineTerminators. */
  predicate IsSpace(c: char) {
    || c == '\t' || c == '\n' || c == '\U{000B}' || c == '\U{000C}' || c == '\r'
    || c == ' ' || c == '\U{00A0}' || c == '\U{1680}'
    || ('\U{2000}' <= c <= '\U{200A}')
    || c == '\U{2028}' || c == '\U{2029}' || c == '\U{202F}' || c == '\U{205F}'
    || c == '\U{3000}' || c == '\U{FEFF}'
  }

  /** Every character of `s` is a space: the strings JavaScript treats as blank after trimming. */
  predicate IsBlank(s: string) {
    forall k :: 0 <= k < |s| ==> IsSpace(s[k])
  }

  /** Drops the leading spaces: the result is the longest suffix that does not start with a space. */
  function TrimStart(s: string): (r: string)
    ensures |r| <= |s| && r == s[|s| - |r|..]
    ensures IsBlank(s[..|s| - |r|])
    ensures r == [] || !IsSpace(r[0])
  {
    if |s| > 0 && IsSpace(s[0]) then
      var t := TrimStart(s[1..]);
      assert s[..|s| - |t|] == [s[0]] + s[1..][..|s| - 1 - |t|];
      t
    else s
  }

  /** Drops the trailing spaces: the result is the longest prefix that does not end with a space. */
  function TrimEnd(s: string): (r: string)
    ensures |r| <= |s| && r == s[..|r|]
    ensures IsBlank(s[|r|..])
    ensures r == [] || !IsSpace(r[|r| - 1])
  {
    if |s| > 0 && IsSpace(s[|s| - 1]) then
      var t := TrimEnd(s[..|s| - 1]);
      assert s[|t|..] == s[..|s| - 1][|t|..] + [s[|s| - 1]];
      t
    else s
  }

  /** `r` is `s` with `i` blank characters cut from the front and a blank tail cut from the back. */
  ghost predicate TrimmedAt(s: string, r: string, i: nat) {
    && i + |r| <= |s|
    && r == s[i..i + |r|]
    && IsBlank(s[..i])
    && IsBlank(s[i + |r|..])
  }

  /** `String.prototype.trim`: the middle of `s` between its blank head and blank tail,
      beginning and ending with a non-space character. */
  function Trim(s: string): (r: string)
    ensures exists i: nat :: TrimmedAt(s, r, i)
    ensures r == [] || (!IsSpace(r[0]) && !IsSpace(r[|r| - 1]))
  {
    var a := TrimStart(s);
    var r := TrimEnd(a);
    assert TrimmedAt(s, r, |s| - |a|) by {
      assert s[|s| - |a|..][|r|..] == s[|s| - |a| + |r|..];
    }
    r
  }

  /** Trimming leaves nothing exactly when every character is a space. */
  lemma {:induction false} TrimEmptyIffBlank(s: string)
    ensures Trim(s) == [] <==> IsBlank(s)
  {
    var r := Trim(s);
    var i: nat :| TrimmedAt(s, r, i);
    if r == [] {
      assert s == s[..i] + s[i..];
      forall k | 0 <= k < |s| ensures IsSpace(s[k]) {
        if k < i { assert s[k] == s[..i][k]; } else { assert s[k] == s[i..][k - i]; }
      }
    } else {
      assert r[0] == s[i];
      assert !IsSpace(s[i]);
    }
  }

  /** Trimming a trimmed string changes nothing. */
  lemma {:induction false} TrimIdempotent(s: string)
    ensures Trim(Trim(s)) == Trim(s)
  {
    var r := Trim(s);
    TrimOfUnpadded(r);
  }

  /** A string with no space at either end is its own trim. */
  lemma {:induction false} TrimOfUnpadded(s: string)
    requires s == [] || (!IsSpace(s[0]) && !IsSpace(s[|s| - 1]))
    ensures Trim(s) == s
  {
    assert TrimStart(s) == s;
    assert TrimEnd(s) == s;
  }

  /** ASCII `toLowerCase` on one character; other characters are left as they are. */
  function LowerChar(c: char): char {
    if 'A' <= c <= 'Z' then (c as int + 32) as char else c
  }

  /** `toLowerCase`, restricted to the ASCII letters. */
  function Lower(s: string): (r: string)
    ensures |r| == |s|
    ensures forall k :: 0 <= k < |s| ==> r[k] == LowerChar(s[k])
  {
    seq(|s|, k requires 0 <= k < |s| => LowerChar(s[k]))
  }

  /** Lowering twice is lowering once, so a lowered query matches lowered text the same way. */
  lemma LowerIdempotent(s: string)
    ensures Lower(Lower(s)) == Lower(s)
  {
  }

  /** `needle` occurs in `hay` starting at position `i`. */
  ghost predicate OccursAt(hay: string, needle: string, i: nat) {
    i + |needle| <= |hay| && hay[i..i + |needle|] == needle
  }

  /** `hay.includes(needle)`: a scan over the start positions of `hay`. */
  function Includes(hay: string, needle: string): bool
    decreases |hay|
  {
    if |needle| > |hay| then false
    else if hay[..|needle|] == needle then true
    else Includes(hay[1..], needle)
  }

  /** The scan finds the needle exactly when it occurs somewhere in the haystack. */
  lemma {:induction false} IncludesIffOccurs(hay: string, needle: string)
    ensures Includes(hay, needle) <==> exists i: nat :: OccursAt(hay, needle, i)
    decreases |hay|
  {
    if |needle| <= |hay| {
      if hay[..|needle|] == needle {
        assert OccursAt(hay, needle, 0);
      } else {
        IncludesIffOccurs(hay[1..], needle);
        if Includes(hay[1..], needle) {
          var i: nat :| OccursAt(hay[1..], needle, i);
          assert hay[i + 1..i + 1 + |needle|] == hay[1..][i..i + |needle|];
          assert OccursAt(hay, needle, i + 1);
        } else if exists i: nat :: OccursAt(hay, needle, i) {
          var i: nat :| OccursAt(hay, needle, i);
          assert i != 0;
          assert hay[1..][i - 1..i - 1 + |needle|] == hay[i..i + |needle|];
          assert OccursAt(hay[1..], needle, i - 1);
          assert false;
        }
      }
    }
  }

  /** Every string includes the empty string. */
  lemma IncludesEmpty(hay: string)
    ensures Includes(hay, [])
  {
  }
}

=== FILE: theme_slice.dfy ===
/** The Redux theme slice: three named themes, cycled in a fixed order. */
module ThemeSlice {
  import opened Optional

  const Light := "light"
  const Dark := "dark"
  const Winter := "winter"

  /** The cycle order. */
  const Themes: seq<string> := [Light, Dark, Winter]

  /** `Array.prototype.indexOf`: the first position holding `x`, or -1. */
  function IndexOf(xs: seq<string>, x: string): (r: int)
    ensures -1 <= r < |xs|
    ensures r >= 0 ==> xs[r] == x && forall j :: 0 <= j < r ==> xs[j] != x
    ensures r == -1 <==> x !in xs
  {
    if |xs| == 0 then -1
    else if xs[0] == x then 0
    else
      var k := IndexOf(xs[1..], x);
      assert forall j :: 1 <= j < |xs| ==> xs[j] == xs[1..][j - 1];
      if k == -1 then -1 else k + 1
  }

  /** `cycleTheme`: the theme after the current one in the cycle order, wrapping
      around; a theme outside the cycle (index -1) is followed by light. */
  function CycleTheme(current: string): (r: string)
    ensures r in Themes
    ensures current == Light ==> r == Dark
    ensures current == Dark ==> r == Winter
    ensures current == Winter ==> r == Light
    ensures current !in Themes ==> r == Light
  {
    Themes[(IndexOf(Themes, current) + 1) % |Themes|]
  }

  /** Three cycles from any known theme come back to it. */
  lemma CycleThrice(current: string)
    requires current in Themes
    ensures CycleTheme(CycleTheme(CycleTheme(current))) == current
  {
  }

  /** `setTheme`: the payload becomes the theme as it is, even one outside the cycle. */
  function SetTheme(current: string, payload: string): (r: string)
    ensures r == payload
  {
    payload
  }

  /** The theme at start-up from the stored value: a missing or empty value (or a storage
      read that fails, also `None` here) gives light, anything else is kept. */
  function LoadTheme(saved: Option<string>): (r: string)
    ensures saved == None || saved == Some("") ==> r == Light
    ensures saved.Some? && saved.value != "" ==> r == saved.value
  {
    match saved
    case None => Light
    case Some(v) => if v == "" then Light else v
  }
}

=== FILE: ui_slice.dfy ===
/** The Redux UI slice: which modals are open, which task the notes modal edits, and
    whether the undo toast is showing. */
module UiSlice {
  import opened Optional

  datatype Ui = Ui(
    shortcutsModalOpen: bool,
    notesModalOpen: bool,
    currentEditingNotes: Option<int>,
    undoToastVisible: bool)

  /** Nothing is open and no task is being annotated. */
  const InitialUi := Ui(false, false, None, false)

  lemma InitialUiIsClosed()
    ensures !InitialUi.shortcutsModalOpen && !InitialUi.notesModalOpen
    ensures !InitialUi.undoToastVisible && InitialUi.currentEditingNotes == None
  {
  }

  function OpenShortcutsModal(u: Ui): (r: Ui)
    ensures r.shortcutsModalOpen
    ensures r.notesModalOpen == u.notesModalOpen && r.currentEditingNotes == u.currentEditingNotes
    ensures r.undoToastVisible == u.undoToastVisible
  {
    u.(shortcutsModalOpen := true)
  }

  function CloseShortcutsModal(u: Ui): (r: Ui)
    ensures !r.shortcutsModalOpen
    ensures r.notesModalOpen == u.notesModalOpen && r.currentEditingNotes == u.currentEditingNotes
    ensures r.undoToastVisible == u.undoToastVisible
  {
    u.(shortcutsModalOpen := false)
  }

  /** Opens the notes modal on the task at `index` (as the caller computed it). */
  function OpenNotesModal(u: Ui, index: int): (r: Ui)
    ensures r.notesModalOpen && r.currentEditingNotes == Some(index)
    ensures r.shortcutsModalOpen == u.shortcutsModalOpen && r.undoToastVisible == u.undoToastVisible
  {
    u.(notesModalOpen := true, currentEditingNotes := Some(index))
  }

  /** Closes the notes modal and forgets which task it was editing. */
  function CloseNotesModal(u: Ui): (r: Ui)
    ensures !r.notesModalOpen && r.currentEditingNotes == None
    ensures r.shortcutsModalOpen == u.shortcutsModalOpen && r.undoToastVisible == u.undoToastVisible
  {
    u.(notesModalOpen := false, currentEditingNotes := None)
  }

  function ShowUndoToast(u: Ui): (r: Ui)
    ensures r.undoToastVisible
    ensures r.shortcutsModalOpen == u.shortcutsModalOpen && r.notesModalOpen == u.notesModalOpen
    ensures r.currentEditingNotes == u.currentEditingNotes
  {
    u.(undoToastVisible := true)
  }

  function HideUndoToast(u: Ui): (r: Ui)
    ensures !r.undoToastVisible
    ensures r.shortcutsModalOpen == u.shortcutsModalOpen && r.notesModalOpen == u.notesModalOpen
    ensures r.currentEditingNotes == u.currentEditingNotes
  {
    u.(undoToastVisible := false)
  }

  /** Each flag reducer, applied twice, acts as applied once. */
  lemma FlagReducersIdempotent(u: Ui)
    ensures OpenShortcutsModal(OpenShortcutsModal(u)) == OpenShortcutsModal(u)
    ensures CloseShortcutsModal(CloseShortcutsModal(u)) == CloseShortcutsModal(u)
    ensures ShowUndoToast(ShowUndoToast(u)) == ShowUndoToast(u)
    ensures HideUndoToast(HideUndoToast(u)) == HideUndoToast(u)
    ensures CloseNotesModal(CloseNotesModal(u)) == CloseNotesModal(u)
  {
  }

  /** Opening then closing the notes modal leaves the other flags as they were. */
  lemma OpenThenCloseNotes(u: Ui, index: int)
    ensures CloseNotesModal(OpenNotesModal(u, index)) == CloseNotesModal(u)
  {
  }
}

=== FILE: views.dfy ===
/** The two derived views both variants compute from the task list: the filtered and
    searched list that is displayed, and the statistics bar. */
module Views {
  import opened Text
  import opened TaskModel
  import Splice

  /** `a` can be obtained from `b` by deleting elements, without reordering the rest. */
  ghost predicate IsSubsequence<T>(a: seq<T>, b: seq<T>)
    decreases |b|
  {
    if |a| == 0 then true
    else if |b| == 0 then false
    else (a[0] == b[0] && IsSubsequence(a[1..], b[1..])) || IsSubsequence(a, b[1..])
  }

  lemma {:induction false} SubsequenceRefl<T>(a: seq<T>)
    ensures IsSubsequence(a, a)
    decreases |a|
  {
    if |a| > 0 {
      SubsequenceRefl(a[1..]);
    }
  }

  /** Every element of a subsequence is an element of the whole. */
  lemma {:induction false} SubsequenceMembers<T>(a: seq<T>, b: seq<T>)
    requires IsSubsequence(a, b)
    ensures forall k :: 0 <= k < |a| ==> a[k] in b
    decreases |b|
  {
    if |a| > 0 {
      if a[0] == b[0] && IsSubsequence(a[1..], b[1..]) {
        SubsequenceMembers(a[1..], b[1..]);
        assert forall k :: 1 <= k < |a| ==> a[k] == a[1..][k - 1];
      } else {
        SubsequenceMembers(a, b[1..]);
      }
    }
  }

  /** Deleting from a sequence obtained by deleting is still deleting. */
  lemma {:induction false} SubsequenceTrans<T>(a: seq<T>, b: seq<T>, c: seq<T>)
    requires IsSubsequence(a, b) && IsSubsequence(b, c)
    ensures IsSubsequence(a, c)
    decreases |c|
  {
    if |a| == 0 {
    } else if a[0] == b[0] && IsSubsequence(a[1..], b[1..]) {
      if b[0] == c[0] && IsSubsequence(b[1..], c[1..]) {
        SubsequenceTrans(a[1..], b[1..], c[1..]);
      } else {
        SubsequenceTrans(a, b, c[1..]);
      }
    } else {
      if b[0] == c[0] && IsSubsequence(b[1..], c[1..]) {
        SubsequenceTrans(a, b[1..], c[1..]);
      } else {
        SubsequenceTrans(a, b, c[1..]);
      }
    }
  }

  /** `Array.prototype.filter`: the elements of `s` that satisfy `p`, in their order. */
  function Where(s: seq<Task>, p: Task -> bool): (r: seq<Task>)
    ensures |r| <= |s|
    ensures IsSubsequence(r, s)
    ensures forall k :: 0 <= k < |r| ==> p(r[k])
    ensures forall k :: 0 <= k < |s| && p(s[k]) ==> s[k] in r
    ensures forall t {:trigger multiset(r)[t]} :: multiset(r)[t] == if p(t) then multiset(s)[t] else 0
  {
    if |s| == 0 then []
    else
      var rest := Where(s[1..], p);
      assert forall k :: 1 <= k < |s| ==> s[k] == s[1..][k - 1];
      assert s == [s[0]] + s[1..];
      if p(s[0]) then
        assert ([s[0]] + rest)[1..] == rest;
        [s[0]] + rest
      else rest
  }

  /** A filter that keeps every element returns the very same list. */
  lemma {:induction false} WhereKeepsAll(s: seq<Task>, p: Task -> bool)
    requires forall k :: 0 <= k < |s| ==> p(s[k])
    ensures Where(s, p) == s
  {
    if |s| > 0 {
      WhereKeepsAll(s[1..], p);
    }
  }

  /** Filtering by `p` and then by `q` is filtering by both at once. */
  lemma {:induction false} WhereWhere(s: seq<Task>, p: Task -> bool, q: Task -> bool)
    ensures Where(Where(s, p), q) == Where(s, t => p(t) && q(t))
  {
    if |s| > 0 {
      WhereWhere(s[1..], p, q);
      if p(s[0]) {
        assert Where(s, p)[1..] == Where(s[1..], p);
      }
    }
  }

  /** Filtering a concatenation filters each part. */
  lemma {:induction false} WhereAppend(a: seq<Task>, b: seq<Task>, p: Task -> bool)
    ensures Where(a + b, p) == Where(a, p) + Where(b, p)
    decreases |a|
  {
    if |a| == 0 {
      assert a + b == b;
    } else {
      assert (a + b)[0] == a[0];
      assert (a + b)[1..] == a[1..] + b;
      WhereAppend(a[1..], b, p);
    }
  }

  /** Taking the same element away from two equal multisets leaves equal multisets. */
  lemma MultisetCancel(x: multiset<Task>, y: multiset<Task>, e: Task)
    requires x + multiset{e} == y + multiset{e}
    ensures x == y
  {
    assert forall t :: x[t] == (x + multiset{e})[t] - multiset{e}[t];
    assert forall t :: y[t] == (y + multiset{e})[t] - multiset{e}[t];
  }

  /** Removing one element from a list lowers the filter count by one exactly when that
      element passes the filter. */
  lemma {:induction false} WhereCountRemove(b: seq<Task>, j: nat, p: Task -> bool)
    requires j < |b|
    ensures |Where(b, p)| == |Where(Splice.RemoveAt(b, j), p)| + (if p(b[j]) then 1 else 0)
  {
    assert b == b[..j] + ([b[j]] + b[j + 1..]);
    WhereAppend(b[..j], [b[j]] + b[j + 1..], p);
    WhereAppend([b[j]], b[j + 1..], p);
    WhereAppend(b[..j], b[j + 1..], p);
    assert [b[j]][1..] == [];
  }

  /** How many elements pass a filter depends only on the multiset of elements, so any
      permutation keeps the count. */
  lemma {:induction false} WhereCountPermutation(a: seq<Task>, b: seq<Task>, p: Task -> bool)
    requires multiset(a) == multiset(b)
    ensures |Where(a, p)| == |Where(b, p)|
    decreases |a|
  {
    if |a| == 0 {
      assert |b| == |multiset(b)| == 0;
    } else {
      assert a[0] in multiset(b);
      var j :| 0 <= j < |b| && b[j] == a[0];
      var rest := Splice.RemoveAt(b, j);
      assert a == [a[0]] + a[1..];
      assert multiset(a[1..]) + multiset{a[0]} == multiset(rest) + multiset{a[0]};
      MultisetCancel(multiset(a[1..]), multiset(rest), a[0]);
      WhereCountPermutation(a[1..], rest, p);
      WhereCountRemove(b, j, p);
    }
  }

  /** A filter and its complement split a list: their sizes add up to its length. */
  lemma {:induction false} WhereSplits(s: seq<Task>, p: Task -> bool, q: Task -> bool)
    requires forall t :: q(t) == !p(t)
    ensures |Where(s, p)| + |Where(s, q)| == |s|
  {
    if |s| > 0 {
      WhereSplits(s[1..], p, q);
    }
  }

  /** The status part of the filter: 'active' keeps open tasks, 'completed' keeps done
      tasks, and any other value (including 'all') keeps everything. */
  predicate StatusMatches(filter: string, t: Task) {
    if filter == FilterActive then !t.completed
    else if filter == FilterCompleted then t.completed
    else true
  }

  /** The search part: the lower-cased text includes the lower-cased query. */
  predicate SearchMatches(query: string, t: Task) {
    Includes(Lower(t.text), Lower(query))
  }

  /** What a task has to satisfy to be displayed; an empty query matches everything. */
  predicate Shown(filter: string, query: string, t: Task) {
    StatusMatches(filter, t) && (query == [] || SearchMatches(query, t))
  }

  /** The search ignores the case of the query: an upper-case query shows what its
      lower-case form shows. */
  lemma QueryCaseIgnored(filter: string, query: string, t: Task)
    ensures Shown(filter, Lower(query), t) == Shown(filter, query, t)
  {
    LowerIdempotent(query);
  }

  /** The empty-query test is a shortcut only: the empty query is included in every text. */
  lemma EmptyQueryMatches(filter: string, query: string, t: Task)
    ensures Shown(filter, query, t) == (StatusMatches(filter, t) && SearchMatches(query, t))
  {
    IncludesEmpty(Lower(t.text));
  }

  /** The status filter step: the tasks whose status matches, each as often as in `tasks`. */
  function ByStatus(tasks: seq<Task>, filter: string): (r: seq<Task>)
    ensures IsSubsequence(r, tasks)
    ensures forall k :: 0 <= k < |tasks| && StatusMatches(filter, tasks[k]) ==> tasks[k] in r
    ensures forall t :: multiset(r)[t] == if StatusMatches(filter, t) then multiset(tasks)[t] else 0
  {
    if filter == FilterActive then Where(tasks, IsActive)
    else if filter == FilterCompleted then Where(tasks, IsDone)
    else
      SubsequenceRefl(tasks);
      tasks
  }

  /** The displayed list: the status filter, then, when the query is non-empty, the
      case-insensitive substring search. It keeps exactly the tasks that are `Shown`,
      in their order in `tasks`. */
  function FilterTasks(tasks: seq<Task>, filter: string, query: string): (r: seq<Task>)
    ensures IsSubsequence(r, tasks)
    ensures forall k :: 0 <= k < |r| ==> Shown(filter, query, r[k])
    ensures forall k :: 0 <= k < |tasks| && Shown(filter, query, tasks[k]) ==> tasks[k] in r
    ensures forall t :: multiset(r)[t] == if Shown(filter, query, t) then multiset(tasks)[t] else 0
  {
    var byStatus := ByStatus(tasks, filter);
    if query != [] then
      var r := Where(byStatus, t => SearchMatches(query, t));
      SubsequenceTrans(r, byStatus, tasks);
      SubsequenceMembers(r, byStatus);
      r
    else byStatus
  }

  /** With the 'all' filter (or any unknown one) and no query, the view is the task list itself. */
  lemma FilterAllShowsEverything(tasks: seq<Task>, filter: string)
    requires filter != FilterActive && filter != FilterCompleted
    ensures FilterTasks(tasks, filter, []) == tasks
  {
  }

  /** The figures shown in the statistics bar. */
  datatype Stats = Stats(total: nat, completed: nat, pending: int, rate: nat)

  /** `d * k` grows with `k`: the one fact about products the rounding proof needs. */
  lemma MulMonotone(d: nat, j: int, k: int)
    requires j <= k
    ensures d * j <= d * k
  {
  }

  /** If `lo` is the quotient of `n` by `d` in the sense of its defining bounds, then
      integer division returns it. */
  lemma {:induction false} QuotientUnique(n: nat, d: nat, lo: int)
    requires d > 0
    requires d * lo <= n < d * lo + d
    ensures n / d == lo
  {
    var q := n / d;
    assert d * q <= n < d * q + d;
    if q > lo {
      MulMonotone(d, lo + 1, q);
    } else if q < lo {
      MulMonotone(d, q + 1, lo);
    }
  }

  /** `Math.round(completed / total * 100)` in exact arithmetic, and 0 for an empty list:
      the integer nearest to the percentage, halves rounding up. */
  function Rate(completed: nat, total: nat): (r: nat)
    requires completed <= total
    ensures r <= 100
    ensures total == 0 ==> r == 0
    ensures total > 0 ==> -(total as int) < 2 * total * r - 200 * completed <= total
    ensures total > 0 && completed == total ==> r == 100
  {
    if total == 0 then 0
    else
      var n := 200 * completed + total;
      var d := 2 * total;
      var q := n / d;
      assert d * q <= n < d * q + d;
      assert 2 * total * q == d * q;
      assert q <= 100 by {
        if q > 100 {
          MulMonotone(d, 101, q);
        }
      }
      if completed == total then
        QuotientUnique(n, d, 100);
        q
      else q
  }

  /** The positions of the completed tasks. */
  ghost function CompletedPositions(tasks: seq<Task>): set<int> {
    set k | 0 <= k < |tasks| && tasks[k].completed
  }

  /** The completed positions of a list are those of its front plus, when the last task is
      done, the last position. */
  lemma {:induction false} PositionsOfSnoc(tasks: seq<Task>, n: nat)
    requires n == |tasks| - 1
    ensures tasks[n].completed ==> CompletedPositions(tasks) == CompletedPositions(tasks[..n]) + {n}
    ensures !tasks[n].completed ==> CompletedPositions(tasks) == CompletedPositions(tasks[..n])
  {
    var front := tasks[..n];
    var extra: set<int> := if tasks[n].completed then {n} else {};
    forall k | k in CompletedPositions(tasks)
      ensures k in CompletedPositions(front) + extra
    {
      if k < n {
        assert front[k] == tasks[k];
      }
    }
    forall k | k in CompletedPositions(front) + extra
      ensures k in CompletedPositions(tasks)
    {
      if k in CompletedPositions(front) {
        assert front[k] == tasks[k];
      }
    }
  }

  /** Adding one task at the end adds one to the done count exactly when it is done. */
  lemma {:induction false} DoneCountOfSnoc(tasks: seq<Task>)
    requires |tasks| > 0
    ensures var n := |tasks| - 1;
      |Where(tasks, IsDone)| == |Where(tasks[..n], IsDone)| + (if tasks[n].completed then 1 else 0)
  {
    var n := |tasks| - 1;
    assert tasks == tasks[..n] + [tasks[n]];
    WhereAppend(tasks[..n], [tasks[n]], IsDone);
    assert [tasks[n]][1..] == [];
  }

  /** Counting the done tasks with the filter gives the number of completed positions. */
  lemma {:induction false} DoneCountIsPositions(tasks: seq<Task>)
    ensures |Where(tasks, IsDone)| == |CompletedPositions(tasks)|
    decreases |tasks|
  {
    if |tasks| > 0 {
      var n := |tasks| - 1;
      var before := CompletedPositions(tasks[..n]);
      var e := if tasks[n].completed then 1 else 0;
      assert |Where(tasks, IsDone)| == |before| + e by {
        DoneCountIsPositions(tasks[..n]);
        DoneCountOfSnoc(tasks);
      }
      assert |CompletedPositions(tasks)| == |before| + e by {
        PositionsOfSnoc(tasks, n);
        assert n !in before;
        if tasks[n].completed {
          assert |before + {n}| == |before| + 1;
        }
      }
    } else {
      assert CompletedPositions(tasks) == {};
    }
  }

  /** When every task is done, the done count is the length of the list. */
  lemma {:induction false} AllDoneCount(tasks: seq<Task>)
    ensures (forall k :: 0 <= k < |tasks| ==> tasks[k].completed) ==> |Where(tasks, IsDone)| == |tasks|
  {
    if forall k :: 0 <= k < |tasks| ==> tasks[k].completed {
      WhereKeepsAll(tasks, IsDone);
    }
  }

  /** `updateStats` / `selectTaskStats`: the number of tasks, of done tasks, of open
      tasks, and the rounded completion percentage. */
  function ComputeStats(tasks: seq<Task>): (st: Stats)
    ensures st.total == |tasks|
    ensures st.completed == |CompletedPositions(tasks)|
    ensures st.completed <= st.total
    ensures st.pending == st.total - st.completed
    ensures st.rate == Rate(st.completed, st.total)
    ensures st.total == 0 ==> st == Stats(0, 0, 0, 0)
    ensures (forall k :: 0 <= k < |tasks| ==> tasks[k].completed) ==> st.completed == st.total
    ensures st.total > 0 && st.completed == st.total ==> st.rate == 100
    ensures st.rate <= 100
  {
    var total := |tasks|;
    var completed := |Where(tasks, IsDone)|;
    DoneCountIsPositions(tasks);
    AllDoneCount(tasks);
    Stats(total, completed, total - completed, Rate(completed, total))
  }

  /** The counters agree with the views: `completed` is the size of the 'completed'
      view and `pending` the size of the 'active' view. */
  lemma {:induction false} StatsMatchViews(tasks: seq<Task>)
    ensures ComputeStats(tasks).completed == |FilterTasks(tasks, FilterCompleted, [])|
    ensures ComputeStats(tasks).pending == |FilterTasks(tasks, FilterActive, [])|
  {
    var done := Where(tasks, IsDone);
    var open := Where(tasks, IsActive);
    assert FilterTasks(tasks, FilterCompleted, []) == done;
    assert FilterTasks(tasks, FilterActive, []) == open;
    WhereSplits(tasks, IsDone, IsActive);
  }

  /** The two worked rounding cases: one of three is 33 percent, two of three is 67. */
  lemma RateThirds()
    ensures Rate(1, 3) == 33
    ensures Rate(2, 3) == 67
  {
  }
}
